=== FILE: README.md ===
# Cloudflare Zero Trust adblock synchroniser, modelled in Dafny

The script `tofu/cf-adblock/manage_cloudflare_adblock.py` keeps a set of Zero Trust Gateway
domain lists and one DNS blocking policy in a Cloudflare account in step with chunk files on
disk. Each chunk file becomes one list, named after the file. Every list the script writes
carries a short hash of its items in its description. On the next run, a list whose stored hash
still matches its desired items is left alone. The policy's traffic expression references every
managed list by its ID with the dashes removed.

This project models the pure core of that script:

- the list hash;
- the hash-carrying description and its parser;
- change detection;
- the retry wrapper around every remote call, as a function of what each attempt produced;
- the prefix filter applied to the lists read back from the account;
- loading the desired lists from chunk files whose contents are given;
- the reconciliation into create, update and delete plans;
- executing the creates and updates and collecting the IDs the policy references;
- building the policy payload and choosing between updating and creating the rule.

Modules:

- `Wrappers`: `Option` and `Result`.
- `Seqs`: `Elems`, the set of a sequence's elements, and `StartsWith`, Python's `startswith` and
  the prefix relation on lists.
- `Strings`: Python's `str.find`, `str.replace`, `str.strip` and `str.lower` on `string`,
  plus substring search.
- `LexOrder`: Python's ordering of `str` values, and `Canonical`, which is `sorted(set(xs))`.
- `ListHash`: `calculate_list_hash`, `get_list_description_with_hash`,
  `extract_hash_from_description` and `has_list_changed`.
- `Retry`: `_api_call_with_retry`.
- `ZtLists`: `get_all_zt_lists_by_prefix`.
- `Chunks`: `_load_desired_state_from_chunks`.
- `Reconcile`: `_reconcile_lists_with_hash_detection`.
- `PolicyIds`: `_execute_list_operations_and_get_ids`, and the corrected collection
  described under Findings.
- `Policy`: `create_or_update_zt_gateway_dns_policy`.

Modelling choices:

- SHA-256 is a parameter `digest: string -> Hash16`. `Hash16` is a string of 16 lowercase hex
  digits, the first 16 characters of a SHA-256 hex digest. Every hash property is proved for any
  such function. This covers the properties the script relies on: the hash depends only on the
  set of items, and a stored hash is read back unchanged.
- A remote call is the sequence of outcomes its attempts would produce, `op: nat -> Outcome<T>`.
  Attempt `k` either returns a value or raises one of the SDK's error kinds. The retry wrapper
  returns:
  - how the call ended: a value, `None` for a resource reported missing, or a raised failure;
  - how many attempts ran;
  - the exact sleeps between attempts.
- The remote calls made while running the creates and updates are functions from list name to
  the retried call's `Resolution`.
- Reading a chunk file is a function from path to its lines. `None` stands for an exception
  while opening or reading, which the loader logs and skips.

Two points of the code that are easy to misread:

- A raising create aborts `_execute_list_operations_and_get_ids`: there is no `try` around
  `create_zt_list`. A failed update is only logged, because `update_zt_list` catches every
  exception.
- The hash written into a description is read back unchanged when the base description followed
  by the separating space does not contain `[Hash: ` (`ListHash.ExtractHashRoundTrip`). A base
  without a marker of its own is not enough: a base ending in `[Hash:` forms a marker with that
  space, and the text after it is extracted instead (`ListHash.MarkerStraddlingBase`). A base
  that does contain a marker breaks the round trip as well. The base the script writes is
  `Adblock list from <name>. Managed by script.`, and it meets the condition whenever the list
  name has no `[` (`ListHash.ManagedBaseHasNoMarker`). The list name comes from the chunk file's
  name, and nothing in the script rules out a `[` there: the file pattern `adblock_chunk_*.txt`
  matches such names, and neither replacement removes it. The lemmas about change detection of
  the script's own descriptions assume chunk file names without `[`.

## Model

| member | source | states |
|---|---|---|
| Strings.FindFrom | tofu/cf-adblock/manage_cloudflare_adblock.py:96-97 | `str.find`: -1 or the first occurrence at or after the start index; from index 0 it finds something exactly when the text contains the pattern |
| Strings.ReplaceAll | tofu/cf-adblock/manage_cloudflare_adblock.py:350 | `str.replace` for a non-empty pattern, scanning from the left; its contract is carried by `Strings.ReplaceAllAbsent`, `Strings.ReplaceAllChars` and `Strings.ReplaceAllTrailing` |
| Strings.ReplaceAllAbsent | tofu/cf-adblock/manage_cloudflare_adblock.py:350 | `str.replace`: text that does not contain the pattern comes back unchanged |
| Strings.ReplaceAllChars | tofu/cf-adblock/manage_cloudflare_adblock.py:350 | `str.replace` brings in no character that was in neither the text nor the replacement; a one-character pattern absent from the replacement is gone from the result |
| Strings.ReplaceAllTrailing | tofu/cf-adblock/manage_cloudflare_adblock.py:350 | when the first character of the pattern does not occur in the text before it, replacing the pattern in that text followed by the pattern rewrites just the trailing pattern |
| Strings.Strip | tofu/cf-adblock/manage_cloudflare_adblock.py:355 | `str.strip`: the result is a slice of the input that neither starts nor ends with whitespace, and only whitespace was removed around it |
| Strings.StripIdempotent | tofu/cf-adblock/manage_cloudflare_adblock.py:355 | stripping a stripped line changes nothing |
| LexOrder.LessTotal | tofu/cf-adblock/manage_cloudflare_adblock.py:84 | Python's string order is total: of two distinct strings one is smaller |
| LexOrder.LessTransitive | tofu/cf-adblock/manage_cloudflare_adblock.py:84 | Python's string order is transitive |
| LexOrder.Insert | tofu/cf-adblock/manage_cloudflare_adblock.py:84 | inserting into a strictly ascending sequence keeps it strictly ascending and adds exactly the new element |
| LexOrder.Canonical | tofu/cf-adblock/manage_cloudflare_adblock.py:84 | `sorted(set(items))` is strictly ascending, hence duplicate-free, and holds exactly the items' elements |
| LexOrder.SortedUnique | tofu/cf-adblock/manage_cloudflare_adblock.py:84 | two strictly ascending sequences with the same elements are equal |
| LexOrder.CanonicalDependsOnlyOnElems | tofu/cf-adblock/manage_cloudflare_adblock.py:84 | `sorted(set(items))` depends only on the set of items |
| ListHash.CalculateListHash | tofu/cf-adblock/manage_cloudflare_adblock.py:81-86 | the digest of the sorted distinct items joined by newlines; its contract is carried by `ListHash.HashDependsOnlyOnElems`, `ListHash.HashPermutationInvariant` and `ListHash.HashDuplicateInvariant` |
| ListHash.HashDependsOnlyOnElems | tofu/cf-adblock/manage_cloudflare_adblock.py:81-86 | lists with the same set of items get the same hash, for any digest function |
| ListHash.HashPermutationInvariant | tofu/cf-adblock/manage_cloudflare_adblock.py:81-86 | reordering the items does not change the hash |
| ListHash.HashDuplicateInvariant | tofu/cf-adblock/manage_cloudflare_adblock.py:84 | inserting a duplicate of an item anywhere does not change the hash |
| ListHash.DescriptionWithHash | tofu/cf-adblock/manage_cloudflare_adblock.py:88-90 | the base, a space and `[Hash: <hash>]`; its contract is carried by `ListHash.ExtractHashRoundTrip` and `ListHash.MarkerStraddlingBase` |
| ListHash.ExtractHash | tofu/cf-adblock/manage_cloudflare_adblock.py:92-99 | no hash without the marker or without a `]`; a hash found is non-empty, has no `]`, and is followed by `]` right after the first marker |
| ListHash.ExtractAfterFirstMarker | tofu/cf-adblock/manage_cloudflare_adblock.py:92-99 | when the first marker is followed by a non-empty `]`-free text and a `]`, exactly that text is extracted |
| ListHash.ExtractHashRoundTrip | tofu/cf-adblock/manage_cloudflare_adblock.py:88-99 | a hash embedded in a description whose base (with the separating space) has no marker is extracted unchanged |
| ListHash.MarkerStraddlingBase | tofu/cf-adblock/manage_cloudflare_adblock.py:88-99 | a concrete instance: the base `[Hash:` has no marker of its own, yet with the hash `abc` extraction returns `[Hash: abc` rather than `abc`, because the base and the separating space form a marker |
| ListHash.HasListChanged | tofu/cf-adblock/manage_cloudflare_adblock.py:101-112 | a description from which no hash can be extracted counts as changed (in particular one without the marker); otherwise the list counts as changed exactly when the extracted hash differs from the current items' hash |
| ListHash.ManagedBaseHasNoMarker | tofu/cf-adblock/manage_cloudflare_adblock.py:418 | the base description the script writes for a list whose name has no `[`, followed by the separating space, contains no marker |
| ListHash.ManagedDescription | tofu/cf-adblock/manage_cloudflare_adblock.py:417-418 | the description the create and update paths write for a list; its contract is carried by `ListHash.ManagedBaseHasNoMarker`, `ListHash.ChangeDetectedExactlyOnHashChange` and `ListHash.SameItemsReadAsUnchanged` |
| ListHash.ChangeDetectedExactlyOnHashChange | tofu/cf-adblock/manage_cloudflare_adblock.py:101-112 | for a description the script wrote, a list counts as changed exactly when the current items hash differently from the written ones |
| ListHash.SameItemsReadAsUnchanged | tofu/cf-adblock/manage_cloudflare_adblock.py:101-112 | the description written for a set of items reads as unchanged for any list with that set of items |
| Retry.ClassifyApiError | tofu/cf-adblock/manage_cloudflare_adblock.py:145-154 | an API error whose lowercased message has "not found" or "404" is read as missing; otherwise "already exists" or "409" is read as existing |
| Retry.Settle | tofu/cf-adblock/manage_cloudflare_adblock.py:131-155 | how a non-retried attempt ends the call: its value, `None` for an API error read as missing, otherwise the raised failure; its contract is carried by `Retry.RetryFromShape` and `Retry.RetryCall` |
| Retry.RetryFromShape | tofu/cf-adblock/manage_cloudflare_adblock.py:130-164 | from attempt `i`: the attempts before the last were retried failures, the sleeps are the schedule's delays for them, and the call ends as the last attempt settles |
| Retry.RetryCall | tofu/cf-adblock/manage_cloudflare_adblock.py:124-164 | one to six attempts; the sleeps are a prefix of 2, 5, 30, 30, 60, one per retry; the last attempt is not a retried failure unless the schedule ran out; a first attempt that settles ends the call with no sleep |
| Retry.ExhaustedRetriesRaiseLast | tofu/cf-adblock/manage_cloudflare_adblock.py:130-141 | six retried failures sleep the whole schedule and raise the sixth failure |
| Retry.FirstSettledAttemptDecides | tofu/cf-adblock/manage_cloudflare_adblock.py:130-164 | the first attempt that is not a retried failure decides the call after exactly the delays before it |
| ZtLists.FilterByPrefix | tofu/cf-adblock/manage_cloudflare_adblock.py:175-183 | the filtering loop over the listing; its contract is carried by `ZtLists.FilterByPrefixKeys`, `ZtLists.FilterByPrefixValues` and `ZtLists.FilterByPrefixKeepsLastMatch` |
| ZtLists.FilterByPrefixKeys | tofu/cf-adblock/manage_cloudflare_adblock.py:175-178 | the kept names are exactly the listed names that start with the prefix |
| ZtLists.FilterByPrefixValues | tofu/cf-adblock/manage_cloudflare_adblock.py:175-183 | each kept name holds the record of the last listed list with that name |
| ZtLists.FilterByPrefixKeepsLastMatch | tofu/cf-adblock/manage_cloudflare_adblock.py:175-183 | exactly the listed names starting with the prefix are kept, each with the record of the last listed list of that name |
| ZtLists.ExistingListsFrom | tofu/cf-adblock/manage_cloudflare_adblock.py:166-184 | `get_all_zt_lists_by_prefix` given the retried listing call; its contract is carried by `ZtLists.ExistingListsAreManaged` |
| ZtLists.ExistingListsAreManaged | tofu/cf-adblock/manage_cloudflare_adblock.py:166-184 | reading the lists fails exactly when the listing call raised, with its failure; a listing reported missing yields no lists; otherwise the kept names are exactly the listed names with the prefix, each with the record of the last listed list of that name |
| Chunks.BaseName | tofu/cf-adblock/manage_cloudflare_adblock.py:349 | `os.path.basename`: a suffix of the path with no `/`, preceded by `/` when shorter than the path |
| Chunks.ListName | tofu/cf-adblock/manage_cloudflare_adblock.py:349-351 | the prefix followed by the base name with `.txt` removed and `_` turned into `-`; its contract is carried by `Chunks.ListNameShape`, `Chunks.ChunkFileListName` and `Chunks.PlainFileListName` |
| Chunks.ListNameShape | tofu/cf-adblock/manage_cloudflare_adblock.py:349-351 | a list name is the prefix followed by a text with no `_` and no `/` |
| Chunks.ChunkFileListName | tofu/cf-adblock/manage_cloudflare_adblock.py:349-351 | for a stem without `.` or `/`, the file `dir/stem.txt` gives the list name prefix + stem with `_` replaced by `-` |
| Chunks.PlainFileListName | tofu/cf-adblock/manage_cloudflare_adblock.py:349-351 | a base name with no `.txt` and no `_` becomes the list name unchanged after the prefix |
| Chunks.CleanLines | tofu/cf-adblock/manage_cloudflare_adblock.py:355 | the kept lines are no more than the read lines, and each is non-empty and stripped |
| Chunks.CleanHead | tofu/cf-adblock/manage_cloudflare_adblock.py:355 | one line contributes at most one kept line, non-empty and stripped |
| Chunks.CleanHeadKeepsNonBlank | tofu/cf-adblock/manage_cloudflare_adblock.py:355 | a line contributes a kept line exactly when its stripped form is non-empty, and then that stripped form |
| Chunks.CleanLinesKeepsNonBlankLines | tofu/cf-adblock/manage_cloudflare_adblock.py:355 | every line whose stripped form is non-empty is kept in that form, and every kept line is the stripped form of a read line |
| Chunks.CleanLinesKeepsLine | tofu/cf-adblock/manage_cloudflare_adblock.py:355 | a line whose stripped form is non-empty is kept in that form |
| Chunks.CleanLinesOnlyStripped | tofu/cf-adblock/manage_cloudflare_adblock.py:355 | every kept line is the contribution of one of the read lines |
| Chunks.CleanLinesConcat | tofu/cf-adblock/manage_cloudflare_adblock.py:355 | cleaning works line by line and keeps file order |
| Chunks.PyTake | tofu/cf-adblock/manage_cloudflare_adblock.py:361 | Python `xs[:k]`: a prefix of `xs` of length `min(k, |xs|)`, or of `|xs| + k` (at least 0) for negative `k` |
| Chunks.Contribution | tofu/cf-adblock/manage_cloudflare_adblock.py:353-365 | what one file contributes: nothing when reading it failed, otherwise what `Chunks.Stored` keeps of its cleaned lines; its contract is carried by `Chunks.ContributionIsKept` |
| Chunks.Stored | tofu/cf-adblock/manage_cloudflare_adblock.py:356-365 | a file's list is a prefix of its cleaned lines within the item limit; when there are more lines than the limit it is exactly `domains[:max_list_items]`, for a non-negative limit the first `max_list_items` lines; the lines themselves when within the limit; present whenever there are lines; skipped for an empty file under a non-negative limit |
| Chunks.UsedFiles | tofu/cf-adblock/manage_cloudflare_adblock.py:341-346 | the files used are a prefix of the sorted paths, strictly ascending, of length `min(limit, n)` for a non-negative limit |
| Chunks.LoadDesiredState | tofu/cf-adblock/manage_cloudflare_adblock.py:336-370 | the file loop over the used files, named and read as the loader does; its contract is carried by `Chunks.DesiredStateWellFormed` and `Chunks.LoadFilesKeepsLastContribution` |
| Chunks.LoadFilesKeepsLastContribution | tofu/cf-adblock/manage_cloudflare_adblock.py:348-367 | a name is loaded exactly when some file of that name contributes, with the contribution of the last such file |
| Chunks.ContributionIsKept | tofu/cf-adblock/manage_cloudflare_adblock.py:353-365 | what a file contributes is what the loader keeps from it: its non-empty cleaned lines when within the limit, otherwise `domains[:max_list_items]` |
| Chunks.DesiredStateWellFormed | tofu/cf-adblock/manage_cloudflare_adblock.py:336-370 | each desired list is named after a used file that was read, and holds that file's cleaned lines when they are within the item limit and `domains[:max_list_items]` of them otherwise (non-empty for a positive limit); every domain is stripped and non-empty |
| Reconcile.ReconcileLists | tofu/cf-adblock/manage_cloudflare_adblock.py:372-404 | creates are the desired lists that do not exist; updates are the existing desired lists whose hash check says changed, with their ID and new items; deletes are the existing lists not desired, with their ID; the three are disjoint |
| Reconcile.StableListIsLeftAlone | tofu/cf-adblock/manage_cloudflare_adblock.py:379-390 | a list whose description was written for the same set of items is neither created, updated nor deleted |
| Reconcile.RewrittenListUpdatedIffHashDiffers | tofu/cf-adblock/manage_cloudflare_adblock.py:379-390 | a list the script wrote is scheduled for update exactly when its desired items hash differently from the written ones |
| PolicyIds.CreatedId | tofu/cf-adblock/manage_cloudflare_adblock.py:223-227 | the ID a create contributes: the response's ID when the call returned one, kept only when truthy; its contract is carried by `PolicyIds.RunCreates` |
| PolicyIds.UpdateSucceeded | tofu/cf-adblock/manage_cloudflare_adblock.py:229-247 | an update succeeds unless its retried call raised; its contract is carried by `PolicyIds.RunUpdates` |
| PolicyIds.RunCreates | tofu/cf-adblock/manage_cloudflare_adblock.py:416-424 | the create loop fails, naming a create that raised, exactly when some create raised; otherwise it collects the IDs of the creates that returned one |
| PolicyIds.RunUpdates | tofu/cf-adblock/manage_cloudflare_adblock.py:427-434 | the update loop adds exactly the IDs of the updates whose call did not raise |
| PolicyIds.CarryExisting | tofu/cf-adblock/manage_cloudflare_adblock.py:437-440 | the third loop adds exactly the IDs of the existing lists outside the excluded names |
| PolicyIds.GatherIds | tofu/cf-adblock/manage_cloudflare_adblock.py:406-442 | the three loops followed by `sorted(set(...))`: strictly ascending, with exactly the created, updated and carried IDs, or the name of a raising create |
| PolicyIds.CollectPolicyListIds | tofu/cf-adblock/manage_cloudflare_adblock.py:406-442 | as written: the result is strictly ascending and holds the IDs of successful creates and updates and of every existing list neither created nor updated |
| PolicyIds.DeletedListsStayReferenced | tofu/cf-adblock/manage_cloudflare_adblock.py:437-439 | under the reconciliation plan, the ID of every list scheduled for deletion is in the as-written ID set |
| PolicyIds.QuietPlanReferencesAllExisting | tofu/cf-adblock/manage_cloudflare_adblock.py:476-482 | a reconciliation plan has nothing to create, update or delete exactly when the desired lists are the existing ones and none changed; then the ID set is that of all existing lists, as in the no-change branch of `main` |
| PolicyIds.UnchangedPlanIsQuiet | tofu/cf-adblock/manage_cloudflare_adblock.py:476-482 | when the desired lists are the existing ones and none changed, the plan is empty |
| PolicyIds.QuietPlanIsUnchanged | tofu/cf-adblock/manage_cloudflare_adblock.py:476-482 | an empty plan means the desired lists are the existing ones and none changed |
| PolicyIds.CollectRetainedListIds | tofu/cf-adblock/manage_cloudflare_adblock.py:437-439 | the corrected collection: as written, but existing lists scheduled for deletion are also left out |
| PolicyIds.RetainedIdsAvoidDeletedLists | tofu/cf-adblock/manage_cloudflare_adblock.py:437-439 | with distinct IDs, the corrected set references no deleted list and still references every kept existing list that was not updated |
| PolicyIds.DeletedIdNotRetained | tofu/cf-adblock/manage_cloudflare_adblock.py:437-439 | with distinct IDs, a deleted list's ID is neither a created ID, an updated ID nor carried by the corrected collection |
| Policy.TrafficExpression | tofu/cf-adblock/manage_cloudflare_adblock.py:270-276 | the `traffic` field; its contract is carried by `Policy.TrafficMatchesNothingOnlyWhenEmpty` and `Policy.ParseTrafficRoundTrip` |
| Policy.TrafficMatchesNothingOnlyWhenEmpty | tofu/cf-adblock/manage_cloudflare_adblock.py:270-276 | the traffic expression is `1==0` exactly when there are no list IDs |
| Policy.ParseRefsOfJoin | tofu/cf-adblock/manage_cloudflare_adblock.py:273-274 | a non-empty ` or `-joined chain of list references parses back to the IDs with dashes removed, in order |
| Policy.ParseTrafficRoundTrip | tofu/cf-adblock/manage_cloudflare_adblock.py:270-276 | for list IDs without `)`, as Cloudflare's UUID list IDs are, the traffic expression references exactly the given lists, dashes removed, in the given order, and none when there are none |
| Policy.BuildPayload | tofu/cf-adblock/manage_cloudflare_adblock.py:270-290 | the payload blocks DNS traffic at precedence 11 and is enabled; its traffic references exactly the lists (`1==0` when there are none); it has a location exactly when a non-empty location ID is given, and then only that one |
| Policy.CreateOrUpdatePolicy | tofu/cf-adblock/manage_cloudflare_adblock.py:292-319 | an existing rule is updated and its ID returned unless the call raised; otherwise a rule is created and the response's ID returned, `None` when the call reported not found; the call fails exactly when it raised |

## Left out

- Network calls through the Cloudflare SDK: each one is represented by what its attempts produce.
  `delete_zt_list` and `_delete_orphaned_lists` only forward each scheduled delete to the SDK,
  so they are represented by the delete plan itself.
- `get_zt_policy_by_name`: its only role here is whether a rule ID exists, which
  `Policy.CreateOrUpdatePolicy` takes as `existingRuleId`.
- SHA-256 itself: it is a parameter, and nothing is proved about its output beyond its shape.
- `time.sleep`: the sleeps are returned, not performed. Logging is left out.
- `glob.glob` and `os.path.join`: the chunk paths are an input. Distinct file paths are assumed,
  as a directory listing gives them.
- `main`, argument parsing, the environment checks and the constants read from the environment:
  process wiring with no logic of its own beyond the branches named in the table.
- The final `raise Exception` after the retry loop: every path of the loop returns or raises
  before it, so it cannot be reached.
- An SDK response lacking a `description` attribute: `ZtLists.RemoteList` receives the default
  `""` already applied.
- Retry.ClassifyApiError: `str.lower` is modelled for ASCII letters only.
- ListHash.ChangeDetectedExactlyOnHashChange requires a list name without `[`. The script does not guarantee it: a chunk file name may contain `[`, and then the written description need not read back its own hash.
- ListHash.SameItemsReadAsUnchanged requires a list name without `[`. The script does not guarantee it: a chunk file name may contain `[`, and then the written description need not read back its own hash.
- Reconcile.StableListIsLeftAlone requires a list name without `[`. The script does not guarantee it: a chunk file name may contain `[`, and then the written description need not read back its own hash.
- Reconcile.RewrittenListUpdatedIffHashDiffers requires a list name without `[`. The script does not guarantee it: a chunk file name may contain `[`, and then the written description need not read back its own hash.
- Chunks.Stored: `max_list_items` is an unbounded integer; the model follows Python slicing for
  negative limits, and a limit of 0 stores empty lists as the code does.
- The logging formatter class at the top of the file is output formatting only.

## Findings

| source | as written | input that shows it | evidently intended | confidence | as-written member | corrected member |
|---|---|---|---|---|---|---|
| tofu/cf-adblock/manage_cloudflare_adblock.py:437-439 | every existing list that is neither created nor updated has its ID added to the policy, including lists scheduled for deletion; `main` updates the policy with these IDs, then deletes those lists | existing list `ad-block-list-old` with ID `X`, desired only `ad-block-list-new` with items `["a.com"]`, create returns ID `Y`: the policy references `X` and `Y`, then `X` is deleted | only lists that survive the run are referenced, so lists scheduled for deletion are excluded as well | medium, not executed | PolicyIds.DeletedListsStayReferenced | PolicyIds.RetainedIdsAvoidDeletedLists |

=== FILE: chunks.dfy ===
/** `_load_desired_state_from_chunks` over contents already read: which chunk files are used,
    what list each becomes, and under which name. */
module Chunks {
  import opened Seqs
  import opened Wrappers
  import opened Strings
  import opened LexOrder

  /** Python's `os.path.basename`: the text after the last `/`. */
  function BaseName(path: string): (r: string)
    ensures '/' !in r
    ensures |r| <= |path| && r == path[|path| - |r|..]
    ensures |r| < |path| ==> path[|path| - |r| - 1] == '/'
    decreases |path|
  {
    if |path| == 0 || path[|path| - 1] == '/' then ""
    else
      var init := BaseName(path[..|path| - 1]);
      assert path[..|path| - 1][|path| - 1 - |init|..] == path[|path| - 1 - |init|..|path| - 1];
      init + [path[|path| - 1]]
  }

  /** The list name for a chunk file: the prefix, then the base name with `.txt` removed and
      `_` turned into `-`. */
  function ListName(prefix: string, path: string): string
  {
    prefix + ReplaceAll(ReplaceAll(BaseName(path), ".txt", ""), "_", "-")
  }

  lemma ListNameShape(prefix: string, path: string)
    ensures StartsWith(ListName(prefix, path), prefix)
    ensures '_' !in ListName(prefix, path)[|prefix|..]
    ensures '/' !in ListName(prefix, path)[|prefix|..]
  {
    var n := ListName(prefix, path);
    var cut := ReplaceAll(BaseName(path), ".txt", "");
    ReplaceAllChars(BaseName(path), ".txt", "");
    ReplaceAllChars(cut, "_", "-");
    assert n == prefix + ReplaceAll(cut, "_", "-");
    assert n[..|prefix|] == prefix;
    assert n[|prefix|..] == ReplaceAll(cut, "_", "-");
  }

  /** A base name with no `.txt` and no `_` is taken over as it is. */
  lemma PlainFileListName(prefix: string, path: string)
    requires !Contains(BaseName(path), ".txt") && !Contains(BaseName(path), "_")
    ensures ListName(prefix, path) == prefix + BaseName(path)
  {
    ReplaceAllAbsent(BaseName(path), ".txt", "");
    ReplaceAllAbsent(BaseName(path), "_", "-");
  }

  /** The base name of `dir/f` is `f` when `f` has no `/`. */
  lemma {:induction false} BaseNameAfterSlash(dir: string, f: string)
    requires '/' !in f
    ensures BaseName(dir + "/" + f) == f
    decreases |f|
  {
    var path := dir + "/" + f;
    if |f| == 0 {
      assert path[|path| - 1] == '/';
    } else {
      var init := f[..|f| - 1];
      assert f[|f| - 1] in f;
      assert path[..|path| - 1] == dir + "/" + init;
      assert path[|path| - 1] == f[|f| - 1];
      BaseNameAfterSlash(dir, init);
      assert f == init + [f[|f| - 1]];
    }
  }

  /** A chunk file `<dir>/<stem>.txt` becomes the list `<prefix><stem>` with the underscores of
      the stem turned into dashes, when the stem has no `/` and no `.`. */
  lemma ChunkFileListName(prefix: string, dir: string, stem: string)
    requires '/' !in stem && '.' !in stem
    ensures ListName(prefix, dir + "/" + stem + ".txt") == prefix + ReplaceAll(stem, "_", "-")
  {
    var path := dir + "/" + stem + ".txt";
    var f := stem + ".txt";
    assert path == dir + "/" + f;
    assert '/' !in f;
    BaseNameAfterSlash(dir, f);
    ReplaceAllTrailing(stem, ".txt", "");
    var cut := ReplaceAll(BaseName(path), ".txt", "");
    assert cut == stem;
    assert ListName(prefix, path) == prefix + ReplaceAll(cut, "_", "-");
  }

  /** A line as the loader keeps it: non-empty and with nothing left to strip. */
  predicate CleanLine(line: string)
  {
    line != "" && Strip(line) == line
  }

  /** The lines a chunk file contributes: the stripped form of each non-blank line, in file order. */
  function CleanLines(lines: seq<string>): (r: seq<string>)
    ensures |r| <= |lines|
    ensures forall k :: 0 <= k < |r| ==> CleanLine(r[k])
    decreases |lines|
  {
    if |lines| == 0 then []
    else
      CleanHead(lines[0]) + CleanLines(lines[1..])
  }

  /** What one line contributes: its stripped form, unless that is empty. */
  function CleanHead(line: string): (r: seq<string>)
    ensures |r| <= 1
    ensures forall k :: 0 <= k < |r| ==> CleanLine(r[k])
  {
    var t := Strip(line);
    StripIdempotent(line);
    if t != "" then [t] else []
  }

  /** A line is kept exactly when it is not blank, and then in its stripped form. */
  lemma CleanHeadKeepsNonBlank(line: string)
    ensures |CleanHead(line)| == 1 <==> Strip(line) != ""
    ensures |CleanHead(line)| == 1 ==> CleanHead(line)[0] == Strip(line)
  {
  }

  /** `x` is the stripped form of one of `lines`. */
  predicate StrippedFrom(lines: seq<string>, x: string)
  {
    exists j :: 0 <= j < |lines| && x == Strip(lines[j])
  }

  /** Cleaning drops exactly the blank lines: every line that is not blank is kept in its stripped
      form, and every kept line is the stripped form of some line. */
  lemma CleanLinesKeepsNonBlankLines(lines: seq<string>)
    ensures forall j :: 0 <= j < |lines| && Strip(lines[j]) != "" ==> Strip(lines[j]) in CleanLines(lines)
    ensures forall x :: x in CleanLines(lines) ==> StrippedFrom(lines, x)
  {
    forall j | 0 <= j < |lines| && Strip(lines[j]) != ""
      ensures Strip(lines[j]) in CleanLines(lines)
    {
      CleanLinesKeepsLine(lines, j);
    }
    forall x | x in CleanLines(lines)
      ensures StrippedFrom(lines, x)
    {
      var j := CleanLinesOnlyStripped(lines, x);
      CleanHeadKeepsNonBlank(lines[j]);
    }
  }

  /** A line that is not blank survives cleaning in its stripped form. */
  lemma {:induction false} CleanLinesKeepsLine(lines: seq<string>, j: int)
    requires 0 <= j < |lines| && Strip(lines[j]) != ""
    ensures Strip(lines[j]) in CleanLines(lines)
    decreases |lines|
  {
    var head := CleanHead(lines[0]);
    var tail := CleanLines(lines[1..]);
    assert CleanLines(lines) == head + tail;
    if j == 0 {
      CleanHeadKeepsNonBlank(lines[0]);
      assert head[0] in head + tail;
    } else {
      assert lines[j] == lines[1..][j - 1];
      CleanLinesKeepsLine(lines[1..], j - 1);
      assert Strip(lines[j]) in tail;
    }
  }

  /** Every kept line comes from one read line: line `j` for kept line `x`. */
  lemma {:induction false} CleanLinesOnlyStripped(lines: seq<string>, x: string) returns (j: int)
    requires x in CleanLines(lines)
    ensures 0 <= j < |lines| && x in CleanHead(lines[j])
    decreases |lines|
  {
    var rest := lines[1..];
    assert CleanLines(lines) == CleanHead(lines[0]) + CleanLines(rest);
    if x in CleanHead(lines[0]) {
      j := 0;
    } else {
      assert forall t :: 0 <= t < |rest| ==> rest[t] == lines[t + 1];
      var i := CleanLinesOnlyStripped(rest, x);
      j := i + 1;
    }
  }

  /** Cleaning keeps file order: the lines of two parts are cleaned part by part. */
  lemma {:induction false} CleanLinesConcat(a: seq<string>, b: seq<string>)
    ensures CleanLines(a + b) == CleanLines(a) + CleanLines(b)
    decreases |a|
  {
    if |a| == 0 {
      assert a + b == b;
    } else {
      assert (a + b)[0] == a[0];
      assert (a + b)[1..] == a[1..] + b;
      CleanLinesConcat(a[1..], b);
    }
  }

  /** Python's `xs[:k]`, negative `k` counting from the end. */
  function PyTake<T(==)>(xs: seq<T>, k: int): (r: seq<T>)
    ensures StartsWith(xs, r)
    ensures k >= 0 ==> |r| == if k <= |xs| then k else |xs|
    ensures k < 0 ==> |r| == if |xs| + k >= 0 then |xs| + k else 0
  {
    if k >= 0 then (if k <= |xs| then xs[..k] else xs)
    else if |xs| + k >= 0 then xs[..|xs| + k]
    else []
  }

  /** What a file's cleaned lines become: truncated when longer than the item limit, kept when
      non-empty, and skipped otherwise. */
  function Stored(domains: seq<string>, maxItems: int): (r: Option<seq<string>>)
    ensures r.Some? ==> StartsWith(domains, r.value)
    ensures r.Some? && maxItems >= 0 ==> |r.value| <= maxItems
    ensures r.Some? && maxItems >= 1 ==> |r.value| >= 1
    ensures |domains| > 0 ==> r.Some?
    ensures maxItems >= 0 && |domains| == 0 ==> r.None?
    ensures 0 < |domains| <= maxItems ==> r == Some(domains)
    ensures |domains| > maxItems ==> r == Some(PyTake(domains, maxItems))
    ensures 0 <= maxItems < |domains| ==> r == Some(domains[..maxItems])
  {
    if |domains| > maxItems then Some(PyTake(domains, maxItems))
    else if |domains| > 0 then Some(domains)
    else None
  }

  /** The list a path contributes, if any: none when reading it failed. */
  function Contribution(read: string -> Option<seq<string>>, maxItems: int, path: string): Option<seq<string>>
  {
    match read(path)
    case None => None
    case Some(lines) => Stored(CleanLines(lines), maxItems)
  }

  /** The chunk files used: the sorted paths, cut to the list limit when there are more. Paths come
      from a directory listing, which never repeats a path, so sorting them is `Canonical`. */
  function UsedFiles(paths: seq<string>, maxLists: int): (r: seq<string>)
    ensures StartsWith(Canonical(paths), r)
    ensures maxLists >= 0 ==> |r| == if maxLists <= |Canonical(paths)| then maxLists else |Canonical(paths)|
    ensures StrictlySorted(r)
    ensures Elems(r) <= Elems(paths)
  {
    var sorted := Canonical(paths);
    var r := if |sorted| > maxLists then PyTake(sorted, maxLists) else sorted;
    assert forall x :: x in r ==> x in sorted;
    r
  }

  /** The file loop: each used file in order stores its contribution under its name, a later file
      replacing an earlier one of the same name. */
  function LoadFiles(files: seq<string>, name: string -> string, contribution: string -> Option<seq<string>>)
    : map<string, seq<string>>
    decreases |files|
  {
    if |files| == 0 then map[]
    else
      var last := files[|files| - 1];
      var m := LoadFiles(files[..|files| - 1], name, contribution);
      match contribution(last)
      case None => m
      case Some(items) => m[name(last) := items]
  }

  /** File `i` is the last of `files` named `n` that contributes anything, and it contributes `v`. */
  predicate LastContributor(files: seq<string>, name: string -> string, contribution: string -> Option<seq<string>>,
                            n: string, i: int, v: seq<string>)
  {
    && 0 <= i < |files|
    && name(files[i]) == n
    && contribution(files[i]) == Some(v)
    && forall j :: i < j < |files| && name(files[j]) == n ==> contribution(files[j]).None?
  }

  /** Some file of `files` is named `n` and contributes a list. */
  predicate Contributes(files: seq<string>, name: string -> string, contribution: string -> Option<seq<string>>,
                        n: string)
  {
    exists i :: 0 <= i < |files| && name(files[i]) == n && contribution(files[i]).Some?
  }

  /** A name is loaded exactly when some file of that name contributes, and it holds the
      contribution of the last such file. */
  lemma {:induction false} LoadFilesKeepsLastContribution(files: seq<string>, name: string -> string,
                                                          contribution: string -> Option<seq<string>>)
    ensures forall n :: n in LoadFiles(files, name, contribution) <==> Contributes(files, name, contribution, n)
    ensures forall n :: n in LoadFiles(files, name, contribution) ==>
      exists i :: LastContributor(files, name, contribution, n, i, LoadFiles(files, name, contribution)[n])
    decreases |files|
  {
    if |files| > 0 {
      var init := files[..|files| - 1];
      var last := files[|files| - 1];
      var r := LoadFiles(files, name, contribution);
      var m := LoadFiles(init, name, contribution);
      LoadFilesKeepsLastContribution(init, name, contribution);
      assert forall i :: 0 <= i < |init| ==> init[i] == files[i];
      var c := contribution(last);
      forall n | n in r
        ensures exists i :: LastContributor(files, name, contribution, n, i, r[n])
      {
        if c.Some? && n == name(last) {
          assert LastContributor(files, name, contribution, n, |files| - 1, r[n]);
        } else {
          assert n in m && r[n] == m[n];
          var i :| LastContributor(init, name, contribution, n, i, m[n]);
          assert LastContributor(files, name, contribution, n, i, r[n]);
        }
      }
      forall n | Contributes(files, name, contribution, n)
        ensures n in r
      {
        var i :| 0 <= i < |files| && name(files[i]) == n && contribution(files[i]).Some?;
        if i < |init| {
          assert name(init[i]) == n && contribution(init[i]).Some?;
          assert Contributes(init, name, contribution, n);
        }
      }
      forall n | n in r
        ensures Contributes(files, name, contribution, n)
      {
        var i :| LastContributor(files, name, contribution, n, i, r[n]);
      }
    }
  }

  /** `_load_desired_state_from_chunks` over the listed paths and what reading each one gave. */
  function LoadDesiredState(paths: seq<string>, read: string -> Option<seq<string>>, prefix: string,
                            maxItems: int, maxLists: int): map<string, seq<string>>
  {
    LoadFiles(UsedFiles(paths, maxLists), p => ListName(prefix, p), p => Contribution(read, maxItems, p))
  }

  /** `items` is what the loader keeps from reading file `p`: its cleaned lines when they are
      non-empty and within the item limit, and their first `maxItems` (Python's slice) when there
      are more. So it is always a prefix of them, within the limit, and non-empty whenever the
      limit is at least one; an empty file is kept, as an empty list, only under a negative limit. */
  predicate KeptFrom(read: string -> Option<seq<string>>, maxItems: int, p: string, items: seq<string>)
  {
    && read(p).Some?
    && var clean := CleanLines(read(p).value);
    && StartsWith(clean, items)
    && (0 < |clean| <= maxItems ==> items == clean)
    && (|clean| > maxItems ==> items == PyTake(clean, maxItems))
    && (0 <= maxItems < |clean| ==> items == clean[..maxItems])
    && (clean == [] ==> maxItems < 0 && items == [])
    && (maxItems >= 0 ==> |items| <= maxItems)
    && (maxItems >= 1 ==> |items| >= 1)
  }

  /** What a file contributes is exactly what the loader keeps from it. */
  lemma ContributionIsKept(read: string -> Option<seq<string>>, maxItems: int, p: string, items: seq<string>)
    requires Contribution(read, maxItems, p) == Some(items)
    ensures KeptFrom(read, maxItems, p, items)
  {
    var clean := CleanLines(read(p).value);
    assert Stored(clean, maxItems) == Some(items);
  }

  /** What the loader keeps from a file is stripped and non-empty, line by line. */
  lemma KeptLinesAreClean(read: string -> Option<seq<string>>, maxItems: int, p: string, items: seq<string>)
    requires KeptFrom(read, maxItems, p, items)
    ensures forall k :: 0 <= k < |items| ==> CleanLine(items[k])
  {
    var clean := CleanLines(read(p).value);
    forall k | 0 <= k < |items| ensures CleanLine(items[k]) {
      assert items[k] == clean[k];
    }
  }

  /** Every desired list is named after one of the used files and holds what the loader keeps from
      that file; its domains are stripped and non-empty. */
  lemma DesiredStateWellFormed(paths: seq<string>, read: string -> Option<seq<string>>, prefix: string,
                               maxItems: int, maxLists: int)
    ensures forall n :: n in LoadDesiredState(paths, read, prefix, maxItems, maxLists) ==>
      exists p :: p in UsedFiles(paths, maxLists) && ListName(prefix, p) == n
        && KeptFrom(read, maxItems, p, LoadDesiredState(paths, read, prefix, maxItems, maxLists)[n])
    ensures forall n, k ::
      (n in LoadDesiredState(paths, read, prefix, maxItems, maxLists)
       && 0 <= k < |LoadDesiredState(paths, read, prefix, maxItems, maxLists)[n]|) ==>
      CleanLine(LoadDesiredState(paths, read, prefix, maxItems, maxLists)[n][k])
  {
    var used := UsedFiles(paths, maxLists);
    var r := LoadDesiredState(paths, read, prefix, maxItems, maxLists);
    var name := p => ListName(prefix, p);
    var contribution := p => Contribution(read, maxItems, p);
    assert r == LoadFiles(used, name, contribution);
    LoadFilesKeepsLastContribution(used, name, contribution);
    forall n | n in r
      ensures exists p :: p in used && ListName(prefix, p) == n && KeptFrom(read, maxItems, p, r[n])
      ensures forall k :: 0 <= k < |r[n]| ==> CleanLine(r[n][k])
    {
      var i :| LastContributor(used, name, contribution, n, i, r[n]);
      var p := used[i];
      ContributionIsKept(read, maxItems, p, r[n]);
      KeptLinesAreClean(read, maxItems, p, r[n]);
    }
  }
}

=== FILE: lexorder.dfy ===
/** Python's ordering of `str` values (code point by code point, a proper prefix first) and
    `sorted(set(items))`, the canonical form the synchroniser hashes and returns IDs in. */
module LexOrder {
  import opened Seqs

  /** Python's `a < b` on strings. */
  predicate Less(a: string, b: string)
    decreases |a|
  {
    if |a| == 0 then |b| > 0
    else if |b| == 0 then false
    else if a[0] != b[0] then a[0] < b[0]
    else Less(a[1..], b[1..])
  }

  lemma {:induction false} LessIrreflexive(a: string)
    ensures !Less(a, a)
    decreases |a|
  {
    if |a| > 0 {
      LessIrreflexive(a[1..]);
    }
  }

  lemma {:induction false} LessAsymmetric(a: string, b: string)
    ensures !(Less(a, b) && Less(b, a))
    decreases |a|
  {
    if |a| > 0 && |b| > 0 && a[0] == b[0] {
      LessAsymmetric(a[1..], b[1..]);
    }
  }

  lemma {:induction false} LessTransitive(a: string, b: string, c: string)
    requires Less(a, b) && Less(b, c)
    ensures Less(a, c)
    decreases |a|
  {
    if |a| > 0 && a[0] == b[0] && b[0] == c[0] {
      LessTransitive(a[1..], b[1..], c[1..]);
    }
  }

  lemma {:induction false} LessTotal(a: string, b: string)
    ensures a == b || Less(a, b) || Less(b, a)
    decreases |a|
  {
    if |a| > 0 && |b| > 0 && a[0] == b[0] {
      LessTotal(a[1..], b[1..]);
      if a[1..] == b[1..] {
        assert a == [a[0]] + a[1..] && b == [b[0]] + b[1..];
      }
    }
  }

  /** Every element is below every later one, so there are no duplicates. */
  predicate StrictlySorted(s: seq<string>)
  {
    forall i, j :: 0 <= i < j < |s| ==> Less(s[i], s[j])
  }

  /** Inserts `x` into a strictly sorted sequence unless it is already there. */
  function Insert(x: string, s: seq<string>): (r: seq<string>)
    requires StrictlySorted(s)
    ensures StrictlySorted(r)
    ensures Elems(r) == Elems(s) + {x}
    decreases |s|
  {
    if |s| == 0 then [x]
    else if x == s[0] then s
    else if Less(x, s[0]) then
      BelowHeadBelowAll(x, s);
      ConsSorted(x, s);
      [x] + s
    else
      LessTotal(x, s[0]);
      HeadBelowTail(s);
      var t := Insert(x, s[1..]);
      assert Elems(s) == {s[0]} + Elems(s[1..]);
      assert forall y :: y in t ==> y in Elems(t);
      assert forall y :: y in t ==> y == x || y in s[1..];
      ConsSorted(s[0], t);
      [s[0]] + t
  }

  /** Putting an element below all others in front keeps a sequence strictly sorted, and adds
      just that element. */
  lemma ConsSorted(h: string, t: seq<string>)
    requires StrictlySorted(t)
    requires forall y :: y in t ==> Less(h, y)
    ensures StrictlySorted([h] + t)
    ensures Elems([h] + t) == Elems(t) + {h}
  {
    var r := [h] + t;
    forall i, j | 0 <= i < j < |r| ensures Less(r[i], r[j]) {
      assert r[j] == t[j - 1];
      if i > 0 {
        assert r[i] == t[i - 1];
      } else {
        assert t[j - 1] in t;
      }
    }
  }

  /** The head of a strictly sorted sequence is below everything after it. */
  lemma HeadBelowTail(s: seq<string>)
    requires StrictlySorted(s) && |s| > 0
    ensures forall y :: y in s[1..] ==> Less(s[0], y)
  {
    forall y | y in s[1..] ensures Less(s[0], y) {
      var j :| 0 <= j < |s| - 1 && s[1..][j] == y;
      assert s[j + 1] == y;
    }
  }

  /** What is below the head of a strictly sorted sequence is below all of it. */
  lemma BelowHeadBelowAll(x: string, s: seq<string>)
    requires StrictlySorted(s) && |s| > 0 && Less(x, s[0])
    ensures forall y :: y in s ==> Less(x, y)
  {
    HeadBelowTail(s);
    forall y | y in s ensures Less(x, y) {
      if y != s[0] {
        assert y in s[1..] by {
          var j :| 0 <= j < |s| && s[j] == y;
          assert j > 0 && s[1..][j - 1] == y;
        }
        LessTransitive(x, s[0], y);
      }
    }
  }

  /** Python's `sorted(set(items))`. */
  function Canonical(items: seq<string>): (r: seq<string>)
    ensures StrictlySorted(r)
    ensures Elems(r) == Elems(items)
    decreases |items|
  {
    if |items| == 0 then []
    else
      assert Elems(items) == Elems(items[1..]) + {items[0]};
      Insert(items[0], Canonical(items[1..]))
  }

  /** In a strictly sorted sequence the first element is below every other element. */
  lemma {:induction false} SortedHeadNotInTail(s: seq<string>)
    requires StrictlySorted(s) && |s| > 0
    ensures s[0] !in s[1..]
  {
    if s[0] in s[1..] {
      var j :| 0 <= j < |s| - 1 && s[1..][j] == s[0];
      assert Less(s[0], s[j + 1]);
      LessIrreflexive(s[0]);
    }
  }

  lemma HeadInElems(s: seq<string>)
    requires |s| > 0
    ensures s[0] in Elems(s)
  {
  }

  /** A strictly sorted sequence is determined by its set of elements. */
  lemma {:induction false} SortedUnique(a: seq<string>, b: seq<string>)
    requires StrictlySorted(a) && StrictlySorted(b)
    requires Elems(a) == Elems(b)
    ensures a == b
    decreases |a|
  {
    if |a| == 0 {
      if |b| > 0 {
        HeadInElems(b);
      }
    } else {
      assert a[0] in Elems(b);
      assert |b| > 0;
      assert b[0] in Elems(a);
      if a[0] != b[0] {
        var i :| 0 <= i < |a| && a[i] == b[0];
        var j :| 0 <= j < |b| && b[j] == a[0];
        assert Less(a[0], b[0]) by { assert i > 0; }
        assert Less(b[0], a[0]) by { assert j > 0; }
        LessAsymmetric(a[0], b[0]);
      }
      SortedHeadNotInTail(a);
      SortedHeadNotInTail(b);
      assert Elems(a) == {a[0]} + Elems(a[1..]);
      assert Elems(b) == {b[0]} + Elems(b[1..]);
      assert Elems(a[1..]) == Elems(a) - {a[0]};
      assert Elems(b[1..]) == Elems(b) - {b[0]};
      SortedUnique(a[1..], b[1..]);
      assert a == [a[0]] + a[1..] && b == [b[0]] + b[1..];
    }
  }

  /** `sorted(set(items))` depends on the set of items only. */
  lemma CanonicalDependsOnlyOnElems(a: seq<string>, b: seq<string>)
    requires Elems(a) == Elems(b)
    ensures Canonical(a) == Canonical(b)
  {
    SortedUnique(Canonical(a), Canonical(b));
  }
}

=== FILE: listhash.dfy ===
/** Hash-based change detection: the items hash, the description that carries it, and the
    test that decides whether a list must be rewritten. */
module ListHash {
  import opened Seqs
  import opened Wrappers
  import opened Strings
  import opened LexOrder

  predicate IsHexDigit(c: char)
  {
    '0' <= c <= '9' || 'a' <= c <= 'f'
  }

  /** The first 16 characters of a lower-case SHA-256 hex digest. */
  type Hash16 = h: string | |h| == 16 && forall i | 0 <= i < |h| :: IsHexDigit(h[i])
    witness "0000000000000000"

  /** SHA-256 of the UTF-8 encoding of a string, cut to 16 hex characters. The digest itself is
      foreign code, so it is a parameter and nothing is assumed about it beyond its shape. */
  type Digest = string -> Hash16

  /** The text that is hashed: the distinct items, sorted, one per line. */
  function HashedContent(items: seq<string>): string
  {
    Join(Canonical(items), "\n")
  }

  /** `calculate_list_hash`. */
  function CalculateListHash(digest: Digest, items: seq<string>): Hash16
  {
    digest(HashedContent(items))
  }

  /** The hash depends on the set of items only. */
  lemma HashDependsOnlyOnElems(digest: Digest, a: seq<string>, b: seq<string>)
    requires Elems(a) == Elems(b)
    ensures CalculateListHash(digest, a) == CalculateListHash(digest, b)
  {
    CanonicalDependsOnlyOnElems(a, b);
  }

  /** Reordering the items never changes the hash. */
  lemma HashPermutationInvariant(digest: Digest, a: seq<string>, b: seq<string>)
    requires multiset(a) == multiset(b)
    ensures CalculateListHash(digest, a) == CalculateListHash(digest, b)
  {
    assert forall x :: x in a <==> x in multiset(a);
    assert forall x :: x in b <==> x in multiset(b);
    HashDependsOnlyOnElems(digest, a, b);
  }

  /** Repeating an item anywhere in the list never changes the hash. */
  lemma HashDuplicateInvariant(digest: Digest, items: seq<string>, i: nat, k: nat)
    requires i < |items| && k <= |items|
    ensures CalculateListHash(digest, items[..k] + [items[i]] + items[k..])
         == CalculateListHash(digest, items)
  {
    var dup := items[..k] + [items[i]] + items[k..];
    assert items == items[..k] + items[k..];
    assert Elems(dup) == Elems(items);
    HashDependsOnlyOnElems(digest, dup, items);
  }

  /** The marker that introduces the embedded hash. */
  const Marker: string := "[Hash: "

  /** `get_list_description_with_hash`. */
  function DescriptionWithHash(base: string, itemsHash: string): string
  {
    base + " " + Marker + itemsHash + "]"
  }

  /** `extract_hash_from_description`: the text between the first marker and the first `]` after
      it, when that text is non-empty. */
  function ExtractHash(description: string): (r: Option<string>)
    ensures !Contains(description, Marker) ==> r.None?
    ensures !Contains(description, "]") ==> r.None?
    ensures r.Some? ==> |r.value| > 0 && ']' !in r.value
    ensures r.Some? ==> OccursAt(description, Marker + r.value + "]", FindFrom(description, Marker, 0))
  {
    if Contains(description, Marker) && Contains(description, "]") then
      var start := FindFrom(description, Marker, 0) + 7;
      var end := FindFrom(description, "]", start);
      if start > 6 && end > start then
        ExtractedSlice(description, start, end);
        Some(description[start..end])
      else None
    else None
  }

  /** The text between a marker ending at `start` and the first `]` from `start` on has no `]`,
      and marker, text and `]` occur together. */
  lemma ExtractedSlice(description: string, start: int, end: int)
    requires 7 <= start <= end
    requires OccursAt(description, Marker, start - 7)
    requires OccursAt(description, "]", end)
    requires forall j :: start <= j < end ==> !OccursAt(description, "]", j)
    ensures ']' !in description[start..end]
    ensures OccursAt(description, Marker + description[start..end] + "]", start - 7)
  {
    var h := description[start..end];
    forall k | 0 <= k < |h| ensures h[k] != ']' {
      assert h[k] == description[start + k];
      assert !OccursAt(description, "]", start + k);
      assert description[start + k..start + k + 1] == [description[start + k]];
    }
    assert description[start - 7..start] == Marker;
    assert description[end..end + 1] == "]";
    assert description[start - 7..end + 1] == description[start - 7..start] + h + description[end..end + 1];
  }

  /** Extraction recovers `h` when the first marker of `description` is followed by `h` and a `]`,
      and `h` is non-empty and free of `]`. */
  lemma ExtractAfterFirstMarker(description: string, i: nat, h: string)
    requires OccursAt(description, Marker + h + "]", i)
    requires forall j :: 0 <= j < i ==> !OccursAt(description, Marker, j)
    requires |h| > 0 && ']' !in h
    ensures ExtractHash(description) == Some(h)
  {
    var w := Marker + h + "]";
    assert w[..7] == Marker;
    assert w[7..7 + |h|] == h;
    assert w[7 + |h|..8 + |h|] == "]";
    OccurrenceSlice(description, w, i, 0, 7);
    assert OccursAt(description, Marker, i);
    assert FindFrom(description, Marker, 0) == i;
    var start := i + 7;
    OccurrenceSlice(description, w, i, 7, 7 + |h|);
    OccurrenceSlice(description, w, i, 7 + |h|, 8 + |h|);
    assert OccursAt(description, "]", start + |h|);
    forall j | start <= j < start + |h|
      ensures !OccursAt(description, "]", j)
    {
      assert description[j] == h[j - start];
    }
    assert FindFrom(description, "]", start) == start + |h|;
  }

  /** Codec round trip: the hash embedded by `DescriptionWithHash` is the one extracted, provided
      the marker does not already occur in the base text followed by the separating space. */
  lemma ExtractHashRoundTrip(base: string, h: string)
    requires !Contains(base + " ", Marker)
    requires |h| > 0 && ']' !in h
    ensures ExtractHash(DescriptionWithHash(base, h)) == Some(h)
  {
    var d := DescriptionWithHash(base, h);
    var i := |base| + 1;
    assert d == (base + " ") + (Marker + h + "]");
    assert OccursAt(d, Marker + h + "]", i);
    forall j | 0 <= j < i
      ensures !OccursAt(d, Marker, j)
    {
      if j + 7 <= i {
        assert (base + " ")[j..j + 7] == d[j..j + 7];
        assert !OccursAt(base + " ", Marker, j);
      } else if j + 7 <= |d| {
        assert d[j..j + 7][i - j] == d[i] == '[';
        assert Marker[i - j] != '[';
      }
    }
    ExtractAfterFirstMarker(d, i, h);
  }

  /** The round trip needs more than "the base does not contain the marker": a base ending in
      `[Hash:` lets the first marker straddle the base and the appended text. */
  lemma MarkerStraddlingBase()
    ensures !Contains("[Hash:", Marker)
    ensures ExtractHash(DescriptionWithHash("[Hash:", "abc"))
         == Some("[Hash: abc")
  {
    var h := "[Hash: abc";
    var d := DescriptionWithHash("[Hash:", "abc");
    assert d == Marker + h + "]";
    assert OccursAt(d, Marker + h + "]", 0);
    ExtractAfterFirstMarker(d, 0, h);
  }

  /** `has_list_changed`: no embedded hash means "changed"; otherwise the hashes are compared. */
  function HasListChanged(digest: Digest, currentItems: seq<string>, existingDescription: string): (r: bool)
    ensures !Contains(existingDescription, Marker) ==> r
    ensures ExtractHash(existingDescription).None? ==> r
    ensures ExtractHash(existingDescription).Some? ==>
      (r <==> ExtractHash(existingDescription).value != CalculateListHash(digest, currentItems))
    ensures !r <==> ExtractHash(existingDescription) == Some(CalculateListHash(digest, currentItems))
  {
    match ExtractHash(existingDescription)
    case None => true
    case Some(existingHash) => CalculateListHash(digest, currentItems) != existingHash
  }

  /** The base description the script gives every list it creates or updates. */
  function ManagedBase(name: string): string
  {
    "Adblock list from " + name + ". Managed by script."
  }

  /** The full description written by the create and update paths for `items`. */
  function ManagedDescription(digest: Digest, name: string, items: seq<string>): string
  {
    DescriptionWithHash(ManagedBase(name), CalculateListHash(digest, items))
  }

  /** A name without `[` cannot make the marker appear in the managed base text. */
  lemma ManagedBaseHasNoMarker(name: string)
    requires '[' !in name
    ensures !Contains(ManagedBase(name) + " ", Marker)
  {
    var b := ManagedBase(name) + " ";
    assert b == "Adblock list from " + name + ". Managed by script. ";
    assert '[' !in b;
    forall i | 0 <= i <= |b| - |Marker|
      ensures !OccursAt(b, Marker, i)
    {
      assert b[i] in b;
      assert b[i..i + |Marker|][0] == b[i] != Marker[0];
    }
  }

  /** Against a description the script wrote, change detection reports a change exactly when the
      new items hash differently from the items the description was written for. */
  lemma ChangeDetectedExactlyOnHashChange(digest: Digest, name: string, written: seq<string>, current: seq<string>)
    requires '[' !in name
    ensures HasListChanged(digest, current, ManagedDescription(digest, name, written))
        <==> CalculateListHash(digest, current) != CalculateListHash(digest, written)
  {
    ManagedBaseHasNoMarker(name);
    ExtractHashRoundTrip(ManagedBase(name), CalculateListHash(digest, written));
  }

  /** A list rewritten for some items reads as unchanged for any list with the same set of items. */
  lemma SameItemsReadAsUnchanged(digest: Digest, name: string, written: seq<string>, current: seq<string>)
    requires '[' !in name
    requires Elems(current) == Elems(written)
    ensures !HasListChanged(digest, current, ManagedDescription(digest, name, written))
  {
    HashDependsOnlyOnElems(digest, current, written);
    ChangeDetectedExactlyOnHashChange(digest, name, written, current);
  }
}

=== FILE: policy.dfy ===
/** The DNS policy payload built by `create_or_update_zt_gateway_dns_policy`, and which call it is
    sent with. */
module Policy {
  import opened Seqs
  import opened Wrappers
  import opened Strings
  import opened Retry

  /** Opening text of one list reference in the traffic expression. */
  const RefOpen: string := "any(dns.domains[*] in $"
  /** Separator between list references. */
  const Separator: string := " or "
  /** The expression used when there is no list: it matches nothing. */
  const MatchNothing: string := "1==0"
  const PolicyPrecedence: int := 11

  /** A list ID as written in the rule: the UUID without its dashes. */
  function StripDashes(id: string): string
  {
    ReplaceAll(id, "-", "")
  }

  function ListRef(id: string): string
  {
    RefOpen + StripDashes(id) + ")"
  }

  function ListRefs(ids: seq<string>): seq<string>
  {
    seq(|ids|, i requires 0 <= i < |ids| => ListRef(ids[i]))
  }

  /** The `traffic` field. */
  function TrafficExpression(ids: seq<string>): string
  {
    if |ids| == 0 then MatchNothing else Join(ListRefs(ids), Separator)
  }

  /** Reads back the dash-free list IDs from a non-empty `or`-chain of list references. */
  function ParseRefs(s: string): Option<seq<string>>
    decreases |s|
  {
    if !StartsWith(s, RefOpen) then None
    else
      var body := s[|RefOpen|..];
      var k := FindFrom(body, ")", 0);
      if k < 0 then None
      else
        var rest := body[k + 1..];
        if rest == "" then Some([body[..k]])
        else if StartsWith(rest, Separator) then
          match ParseRefs(rest[|Separator|..])
          case None => None
          case Some(more) => Some([body[..k]] + more)
        else None
  }

  /** Reads back the dash-free list IDs a traffic expression refers to. */
  function ParseTraffic(traffic: string): Option<seq<string>>
  {
    if traffic == MatchNothing then Some([]) else ParseRefs(traffic)
  }

  function StrippedIds(ids: seq<string>): seq<string>
  {
    seq(|ids|, i requires 0 <= i < |ids| => StripDashes(ids[i]))
  }

  /** The first `)` of `x + ")" + rest` is the one after `x` when `x` has none. */
  lemma FirstCloseParen(x: string, rest: string)
    requires ')' !in x
    ensures FindFrom(x + ")" + rest, ")", 0) == |x|
  {
    var s := x + ")" + rest;
    assert s[|x|..|x| + 1] == ")";
    assert OccursAt(s, ")", |x|);
    forall j | 0 <= j < |x| ensures !OccursAt(s, ")", j) {
      assert x[j] in x;
      assert s[j..j + 1][0] == x[j];
    }
  }

  /** One step of parsing: the reference to `x` is read off the front, then the separator. */
  lemma ParseRefsHead(x: string, tail: string)
    requires ')' !in x
    ensures ParseRefs(RefOpen + x + ")" + tail) ==
      if tail == "" then Some([x])
      else if StartsWith(tail, Separator) then
        (match ParseRefs(tail[|Separator|..])
         case None => None
         case Some(more) => Some([x] + more))
      else None
  {
    var s := RefOpen + x + ")" + tail;
    assert s[..|RefOpen|] == RefOpen;
    var body := s[|RefOpen|..];
    assert body == x + ")" + tail;
    FirstCloseParen(x, tail);
    assert body[..|x|] == x;
    assert body[|x| + 1..] == tail;
  }

  /** How a chain of two or more references splits at its first separator. */
  lemma JoinListRefsCons(ids: seq<string>)
    requires |ids| > 0
    ensures Join(ListRefs(ids), Separator) ==
      RefOpen + StripDashes(ids[0]) + ")" + (if |ids| == 1 then "" else Separator + Join(ListRefs(ids[1..]), Separator))
  {
    if |ids| > 1 {
      assert ListRefs(ids)[1..] == ListRefs(ids[1..]);
    }
  }

  /** A single reference parses to its ID. */
  lemma ParseRefsSingle(x: string)
    requires ')' !in x
    ensures ParseRefs(RefOpen + x + ")") == Some([x])
  {
    ParseRefsHead(x, "");
    assert RefOpen + x + ")" + "" == RefOpen + x + ")";
  }

  /** A reference followed by the separator parses to its ID before whatever the rest parses to. */
  lemma ParseRefsCons(x: string, rest: string)
    requires ')' !in x
    ensures ParseRefs(RefOpen + x + ")" + (Separator + rest)) ==
      match ParseRefs(rest)
      case None => None
      case Some(more) => Some([x] + more)
  {
    var tail := Separator + rest;
    ParseRefsHead(x, tail);
    assert tail != "";
    assert StartsWith(tail, Separator);
    assert tail[|Separator|..] == rest;
  }

  /** The dash-free IDs of a non-empty sequence, first one split off. */
  lemma StrippedIdsCons(ids: seq<string>)
    requires |ids| > 0
    ensures StrippedIds(ids) == [StripDashes(ids[0])] + StrippedIds(ids[1..])
  {
  }

  /** Dropping dashes introduces no `)`. */
  lemma StripDashesKeepsNoParen(id: string)
    requires ')' !in id
    ensures ')' !in StripDashes(id)
  {
    ReplaceAllChars(id, "-", "");
  }

  /** Parsing a non-empty `or`-chain of references recovers the dash-free IDs in order. */
  lemma {:induction false} ParseRefsOfJoin(ids: seq<string>)
    requires |ids| > 0
    requires forall i :: 0 <= i < |ids| ==> ')' !in ids[i]
    ensures ParseRefs(Join(ListRefs(ids), Separator)) == Some(StrippedIds(ids))
    decreases |ids|
  {
    var x := StripDashes(ids[0]);
    StripDashesKeepsNoParen(ids[0]);
    var s := Join(ListRefs(ids), Separator);
    JoinListRefsCons(ids);
    StrippedIdsCons(ids);
    if |ids| == 1 {
      assert s == RefOpen + x + ")" + "";
      assert s == RefOpen + x + ")";
      ParseRefsSingle(x);
      assert StrippedIds(ids) == [x] + [] == [x];
      assert ParseRefs(s) == Some([x]);
    } else {
      var rest := Join(ListRefs(ids[1..]), Separator);
      assert s == RefOpen + x + ")" + (Separator + rest);
      ParseRefsCons(x, rest);
      assert forall i :: 0 <= i < |ids[1..]| ==> ')' !in ids[1..][i] by {
        forall i | 0 <= i < |ids[1..]| ensures ')' !in ids[1..][i] {
          assert ids[1..][i] == ids[i + 1];
        }
      }
      ParseRefsOfJoin(ids[1..]);
    }
  }

  /** A non-empty chain of references starts with `a` and so is never the match-nothing text. */
  lemma TrafficMatchesNothingOnlyWhenEmpty(ids: seq<string>)
    ensures TrafficExpression(ids) == MatchNothing <==> |ids| == 0
  {
    if |ids| > 0 {
      var refs := ListRefs(ids);
      var traffic := TrafficExpression(ids);
      if |ids| == 1 {
        assert traffic == refs[0];
      } else {
        assert traffic == refs[0] + Separator + Join(refs[1..], Separator);
      }
      assert traffic[0] == 'a';
    }
  }

  lemma TrafficRoundTripWhenWellFormed(ids: seq<string>)
    ensures (forall i :: 0 <= i < |ids| ==> ')' !in ids[i]) ==> ParseTraffic(TrafficExpression(ids)) == Some(StrippedIds(ids))
  {
    if forall i :: 0 <= i < |ids| ==> ')' !in ids[i] {
      ParseTrafficRoundTrip(ids);
    }
  }

  /** The traffic expression round trip: it refers to exactly the given lists, dashes removed, in
      the given order, and to nothing when there are none. */
  lemma ParseTrafficRoundTrip(ids: seq<string>)
    requires forall i :: 0 <= i < |ids| ==> ')' !in ids[i]
    ensures ParseTraffic(TrafficExpression(ids)) == Some(StrippedIds(ids))
  {
    TrafficMatchesNothingOnlyWhenEmpty(ids);
    if |ids| > 0 {
      assert TrafficExpression(ids) == Join(ListRefs(ids), Separator);
      ParseRefsOfJoin(ids);
    } else {
      assert StrippedIds(ids) == [];
    }
  }

  /** The policy fields the script sends. */
  datatype Payload = Payload(
    name: string,
    description: string,
    action: string,
    enabled: bool,
    filters: seq<string>,
    traffic: string,
    precedence: int,
    locationIds: Option<seq<string>>)

  /** The payload built from the list IDs and the optional DNS location. */
  function BuildPayload(name: string, description: string, ids: seq<string>, location: Option<string>): (p: Payload)
    ensures p.traffic == MatchNothing <==> |ids| == 0
    ensures (forall i :: 0 <= i < |ids| ==> ')' !in ids[i]) ==> ParseTraffic(p.traffic) == Some(StrippedIds(ids))
    ensures p.locationIds.Some? <==> location.Some? && location.value != ""
    ensures p.locationIds.Some? ==> p.locationIds.value == [location.value]
    ensures p.precedence == 11 && p.action == "block" && p.enabled && p.filters == ["dns"]
    ensures p.name == name && p.description == description
  {
    var traffic := TrafficExpression(ids);
    TrafficMatchesNothingOnlyWhenEmpty(ids);
    TrafficRoundTripWhenWellFormed(ids);
    Payload(name, description, "block", true, ["dns"], traffic, PolicyPrecedence,
            if location.Some? && location.value != "" then Some([location.value]) else None)
  }

  /** The call that carries the payload: an update of the existing rule, or a create. */
  datatype PolicyRequest = UpdateRule(ruleId: string, payload: Payload) | CreateRule(payload: Payload)

  /** `create_or_update_zt_gateway_dns_policy`: the request sent, and, from the retried call's
      response, the policy ID returned or the failure raised. */
  function CreateOrUpdatePolicy(name: string, description: string, ids: seq<string>, location: Option<string>,
                                existingRuleId: Option<string>, response: Resolution<Option<string>>)
    : (r: (PolicyRequest, Result<Option<string>, Failure>))
    ensures r.0.payload == BuildPayload(name, description, ids, location)
    ensures r.0.UpdateRule? <==> existingRuleId.Some?
    ensures r.0.UpdateRule? ==> r.0.ruleId == existingRuleId.value
    ensures r.1.Failure? <==> response.Raised?
    ensures existingRuleId.Some? && !response.Raised? ==> r.1 == Success(existingRuleId)
    ensures existingRuleId.None? && response.Returned? ==> r.1 == Success(response.value)
    ensures existingRuleId.None? && response.NotFound? ==> r.1 == Success(None)
  {
    var payload := BuildPayload(name, description, ids, location);
    var outcome :=
      match response
      case Raised(f) => Failure(f)
      case NotFound => Success(if existingRuleId.Some? then existingRuleId else None)
      case Returned(newId) => Success(if existingRuleId.Some? then existingRuleId else newId);
    match existingRuleId
    case Some(ruleId) => (UpdateRule(ruleId, payload), outcome)
    case None => (CreateRule(payload), outcome)
  }
}

=== FILE: policyids.dfy ===
/** `_execute_list_operations_and_get_ids`: run the planned creates and updates and collect the
    list IDs the DNS policy will reference. What each remote call returned is an input. */
module PolicyIds {
  import opened Seqs
  import opened Wrappers
  import opened LexOrder
  import opened Retry
  import opened ZtLists
  import opened Reconcile

  /** The ID a create contributes: `create_zt_list` yields `response.id` when a response came back,
      and the caller only keeps an ID that is truthy, that is, a non-empty string. */
  function CreatedId(response: Resolution<Option<string>>): Option<string>
  {
    match response
    case Returned(Some(id)) => if id != "" then Some(id) else None
    case _ => None
  }

  /** `update_zt_list` reports success unless its retried call raised. */
  predicate UpdateSucceeded(response: Resolution<()>)
  {
    !response.Raised?
  }

  /** IDs of the lists among `names` whose create produced an ID. */
  function CreatedIds(create: map<string, seq<string>>, names: set<string>,
                      createCall: string -> Resolution<Option<string>>): set<string>
  {
    set n | n in names && n in create && CreatedId(createCall(n)).Some? :: CreatedId(createCall(n)).value
  }

  /** IDs of the lists among `names` whose update succeeded. */
  function UpdatedIds(update: map<string, UpdateOp>, names: set<string>,
                      updateCall: string -> Resolution<()>): set<string>
  {
    set n | n in names && n in update && UpdateSucceeded(updateCall(n)) :: update[n].id
  }

  /** IDs of the existing lists among `names` that are not in `excluded`. */
  function CarriedIds(existing: map<string, ExistingList>, names: set<string>, excluded: set<string>): set<string>
  {
    set n | n in names && n in existing && n !in excluded :: existing[n].id
  }

  lemma CreatedIdsStep(create: map<string, seq<string>>, done: set<string>, name: string,
                       createCall: string -> Resolution<Option<string>>)
    requires name in create
    ensures CreatedIds(create, done + {name}, createCall) == CreatedIds(create, done, createCall)
      + (if CreatedId(createCall(name)).Some? then {CreatedId(createCall(name)).value} else {})
  {
  }

  lemma UpdatedIdsStep(update: map<string, UpdateOp>, done: set<string>, name: string,
                       updateCall: string -> Resolution<()>)
    requires name in update
    ensures UpdatedIds(update, done + {name}, updateCall) == UpdatedIds(update, done, updateCall)
      + (if UpdateSucceeded(updateCall(name)) then {update[name].id} else {})
  {
  }

  lemma CarriedIdsStep(existing: map<string, ExistingList>, done: set<string>, name: string, excluded: set<string>)
    requires name in existing
    ensures CarriedIds(existing, done + {name}, excluded) == CarriedIds(existing, done, excluded)
      + (if name !in excluded then {existing[name].id} else {})
  {
  }

  /** The first loop: the IDs of successful creates, or the name of a create that raised. */
  method RunCreates(create: map<string, seq<string>>, createCall: string -> Resolution<Option<string>>)
    returns (r: Result<seq<string>, string>)
    ensures r.Failure? ==> r.error in create && createCall(r.error).Raised?
    ensures r.Success? <==> forall n :: n in create ==> !createCall(n).Raised?
    ensures r.Success? ==> Elems(r.value) == CreatedIds(create, create.Keys, createCall)
  {
    var ids: seq<string> := [];
    var todo := create.Keys;
    while todo != {}
      invariant todo <= create.Keys
      invariant forall n :: n in create.Keys - todo ==> !createCall(n).Raised?
      invariant Elems(ids) == CreatedIds(create, create.Keys - todo, createCall)
      decreases todo
    {
      var name :| name in todo;
      var response := createCall(name);
      if response.Raised? {
        return Failure(name);
      }
      var done := create.Keys - todo;
      CreatedIdsStep(create, done, name, createCall);
      var newId := CreatedId(response);
      if newId.Some? {
        ids := ids + [newId.value];
      }
      assert create.Keys - (todo - {name}) == done + {name};
      todo := todo - {name};
    }
    r := Success(ids);
  }

  /** The second loop: appends the IDs of successful updates. */
  method RunUpdates(update: map<string, UpdateOp>, updateCall: string -> Resolution<()>, ids0: seq<string>)
    returns (ids: seq<string>)
    ensures Elems(ids) == Elems(ids0) + UpdatedIds(update, update.Keys, updateCall)
  {
    ids := ids0;
    var todo := update.Keys;
    while todo != {}
      invariant todo <= update.Keys
      invariant Elems(ids) == Elems(ids0) + UpdatedIds(update, update.Keys - todo, updateCall)
      decreases todo
    {
      var name :| name in todo;
      var done := update.Keys - todo;
      UpdatedIdsStep(update, done, name, updateCall);
      if UpdateSucceeded(updateCall(name)) {
        assert Elems(ids + [update[name].id]) == Elems(ids) + {update[name].id};
        ids := ids + [update[name].id];
      }
      assert update.Keys - (todo - {name}) == done + {name};
      todo := todo - {name};
    }
  }

  /** The third loop: appends the IDs of existing lists outside `excluded`. */
  method CarryExisting(existing: map<string, ExistingList>, excluded: set<string>, ids0: seq<string>)
    returns (ids: seq<string>)
    ensures Elems(ids) == Elems(ids0) + CarriedIds(existing, existing.Keys, excluded)
  {
    ids := ids0;
    var todo := existing.Keys;
    while todo != {}
      invariant todo <= existing.Keys
      invariant Elems(ids) == Elems(ids0) + CarriedIds(existing, existing.Keys - todo, excluded)
      decreases todo
    {
      var name :| name in todo;
      var done := existing.Keys - todo;
      CarriedIdsStep(existing, done, name, excluded);
      if name !in excluded {
        assert Elems(ids + [existing[name].id]) == Elems(ids) + {existing[name].id};
        ids := ids + [existing[name].id];
      }
      assert existing.Keys - (todo - {name}) == done + {name};
      todo := todo - {name};
    }
  }

  /** The three loops, with existing lists in `excluded` left out of the third, and the result
      returned as `sorted(set(...))`. A create that raises aborts the whole collection. */
  method GatherIds(create: map<string, seq<string>>, update: map<string, UpdateOp>,
                   existing: map<string, ExistingList>, excluded: set<string>,
                   createCall: string -> Resolution<Option<string>>, updateCall: string -> Resolution<()>)
    returns (r: Result<seq<string>, string>)
    ensures r.Failure? ==> r.error in create && createCall(r.error).Raised?
    ensures r.Success? <==> forall n :: n in create ==> !createCall(n).Raised?
    ensures r.Success? ==> StrictlySorted(r.value)
    ensures r.Success? ==> Elems(r.value) == CreatedIds(create, create.Keys, createCall)
                                          + UpdatedIds(update, update.Keys, updateCall)
                                          + CarriedIds(existing, existing.Keys, excluded)
  {
    var created := RunCreates(create, createCall);
    if created.Failure? {
      return created;
    }
    var ids := RunUpdates(update, updateCall, created.value);
    ids := CarryExisting(existing, excluded, ids);
    r := Success(Canonical(ids));
  }

  /** The IDs `_execute_list_operations_and_get_ids` returns when no create raised. */
  function PolicyIdSet(create: map<string, seq<string>>, update: map<string, UpdateOp>, existing: map<string, ExistingList>,
                       createCall: string -> Resolution<Option<string>>, updateCall: string -> Resolution<()>): set<string>
  {
    CreatedIds(create, create.Keys, createCall) + UpdatedIds(update, update.Keys, updateCall)
      + CarriedIds(existing, existing.Keys, create.Keys + update.Keys)
  }

  /** `_execute_list_operations_and_get_ids` as written: the result is strictly ascending, so free
      of duplicates, and holds exactly the IDs of successful creates and updates and of every
      existing list that was neither created nor updated. */
  method CollectPolicyListIds(create: map<string, seq<string>>, update: map<string, UpdateOp>,
                              existing: map<string, ExistingList>,
                              createCall: string -> Resolution<Option<string>>, updateCall: string -> Resolution<()>)
    returns (r: Result<seq<string>, string>)
    ensures r.Failure? ==> r.error in create && createCall(r.error).Raised?
    ensures r.Success? <==> forall n :: n in create ==> !createCall(n).Raised?
    ensures r.Success? ==> StrictlySorted(r.value)
    ensures r.Success? ==> Elems(r.value) == PolicyIdSet(create, update, existing, createCall, updateCall)
  {
    r := GatherIds(create, update, existing, create.Keys + update.Keys, createCall, updateCall);
  }

  /** The ID set as written still holds the ID of every list the plan deletes. */
  lemma DeletedListsStayReferenced(digest: ListHash.Digest, desired: map<string, seq<string>>, existing: map<string, ExistingList>,
                                   create: map<string, seq<string>>, update: map<string, UpdateOp>, delete: map<string, string>,
                                   createCall: string -> Resolution<Option<string>>, updateCall: string -> Resolution<()>)
    requires IsPlan(digest, desired, existing, create, update, delete)
    ensures forall n :: n in delete ==> delete[n] in PolicyIdSet(create, update, existing, createCall, updateCall)
  {
    forall n | n in delete
      ensures delete[n] in PolicyIdSet(create, update, existing, createCall, updateCall)
    {
      assert n in existing && n !in desired;
      assert n !in create.Keys + update.Keys;
      assert existing[n].id in CarriedIds(existing, existing.Keys, create.Keys + update.Keys);
    }
  }

  /** A plan is quiet (nothing to create, update or delete) exactly when the desired lists are the
      existing ones and none of them changed; then the IDs are those of all existing lists, the
      same set the no-change branch of `main` passes on. */
  lemma QuietPlanReferencesAllExisting(digest: ListHash.Digest, desired: map<string, seq<string>>, existing: map<string, ExistingList>,
                                       create: map<string, seq<string>>, update: map<string, UpdateOp>, delete: map<string, string>,
                                       createCall: string -> Resolution<Option<string>>, updateCall: string -> Resolution<()>)
    requires IsPlan(digest, desired, existing, create, update, delete)
    ensures (create == map[] && update == map[] && delete == map[]) <==> Unchanged(digest, desired, existing)
    ensures create == map[] && update == map[] && delete == map[] ==>
      PolicyIdSet(create, update, existing, createCall, updateCall) == set n | n in existing :: existing[n].id
  {
    if Unchanged(digest, desired, existing) {
      UnchangedPlanIsQuiet(digest, desired, existing, create, update, delete);
    }
    if create == map[] && update == map[] && delete == map[] {
      QuietPlanIsUnchanged(digest, desired, existing, create, update, delete);
      assert CreatedIds(map[], {}, createCall) == {};
      assert UpdatedIds(map[], {}, updateCall) == {};
    }
  }

  /** The desired lists are exactly the existing ones, and none of them changed. */
  ghost predicate Unchanged(digest: ListHash.Digest, desired: map<string, seq<string>>, existing: map<string, ExistingList>)
  {
    && desired.Keys == existing.Keys
    && forall n :: n in desired ==> !ListHash.HasListChanged(digest, desired[n], existing[n].description)
  }

  lemma UnchangedPlanIsQuiet(digest: ListHash.Digest, desired: map<string, seq<string>>, existing: map<string, ExistingList>,
                             create: map<string, seq<string>>, update: map<string, UpdateOp>, delete: map<string, string>)
    requires IsPlan(digest, desired, existing, create, update, delete)
    requires Unchanged(digest, desired, existing)
    ensures create == map[] && update == map[] && delete == map[]
  {
    assert create.Keys == {};
    assert delete.Keys == {};
    assert forall n :: n !in update;
    assert update.Keys == {};
  }

  lemma QuietPlanIsUnchanged(digest: ListHash.Digest, desired: map<string, seq<string>>, existing: map<string, ExistingList>,
                             create: map<string, seq<string>>, update: map<string, UpdateOp>, delete: map<string, string>)
    requires IsPlan(digest, desired, existing, create, update, delete)
    requires create == map[] && update == map[] && delete == map[]
    ensures Unchanged(digest, desired, existing)
  {
    assert forall n :: n in desired ==> n in existing;
    assert forall n :: n in existing ==> n in desired;
    forall n | n in desired
      ensures !ListHash.HasListChanged(digest, desired[n], existing[n].description)
    {
      assert n !in update;
    }
  }

  /** The correction: existing lists scheduled for deletion are left out as well, so the policy
      only references lists that survive the run. */
  method CollectRetainedListIds(create: map<string, seq<string>>, update: map<string, UpdateOp>, delete: map<string, string>,
                                existing: map<string, ExistingList>,
                                createCall: string -> Resolution<Option<string>>, updateCall: string -> Resolution<()>)
    returns (r: Result<seq<string>, string>)
    ensures r.Failure? ==> r.error in create && createCall(r.error).Raised?
    ensures r.Success? <==> forall n :: n in create ==> !createCall(n).Raised?
    ensures r.Success? ==> StrictlySorted(r.value)
    ensures r.Success? ==> Elems(r.value) == CreatedIds(create, create.Keys, createCall)
                                          + UpdatedIds(update, update.Keys, updateCall)
                                          + CarriedIds(existing, existing.Keys, create.Keys + update.Keys + delete.Keys)
  {
    r := GatherIds(create, update, existing, create.Keys + update.Keys + delete.Keys, createCall, updateCall);
  }

  /** Distinct managed lists have distinct IDs, and a create never hands out an existing ID. */
  ghost predicate FreshIds(create: map<string, seq<string>>, existing: map<string, ExistingList>,
                           createCall: string -> Resolution<Option<string>>)
  {
    && (forall a, b :: a in existing && b in existing && a != b ==> existing[a].id != existing[b].id)
    && (forall n, e :: n in create && e in existing && CreatedId(createCall(n)).Some? ==>
          CreatedId(createCall(n)).value != existing[e].id)
  }

  /** Under the corrected collection no deleted list's ID is referenced, while every kept existing
      list that was not updated still is. */
  lemma RetainedIdsAvoidDeletedLists(digest: ListHash.Digest, desired: map<string, seq<string>>, existing: map<string, ExistingList>,
                                     create: map<string, seq<string>>, update: map<string, UpdateOp>, delete: map<string, string>,
                                     createCall: string -> Resolution<Option<string>>, updateCall: string -> Resolution<()>)
    requires IsPlan(digest, desired, existing, create, update, delete)
    requires FreshIds(create, existing, createCall)
    ensures forall n :: n in delete ==>
      delete[n] !in CreatedIds(create, create.Keys, createCall)
                  + UpdatedIds(update, update.Keys, updateCall)
                  + CarriedIds(existing, existing.Keys, create.Keys + update.Keys + delete.Keys)
    ensures forall n :: n in existing && n in desired && n !in update ==>
      existing[n].id in CarriedIds(existing, existing.Keys, create.Keys + update.Keys + delete.Keys)
  {
    forall n | n in delete
      ensures delete[n] !in CreatedIds(create, create.Keys, createCall)
                          + UpdatedIds(update, update.Keys, updateCall)
                          + CarriedIds(existing, existing.Keys, create.Keys + update.Keys + delete.Keys)
    {
      DeletedIdNotRetained(digest, desired, existing, create, update, delete, createCall, updateCall, n);
    }
  }

  /** One deleted list's ID is neither created, updated nor carried by the corrected collection. */
  lemma DeletedIdNotRetained(digest: ListHash.Digest, desired: map<string, seq<string>>, existing: map<string, ExistingList>,
                             create: map<string, seq<string>>, update: map<string, UpdateOp>, delete: map<string, string>,
                             createCall: string -> Resolution<Option<string>>, updateCall: string -> Resolution<()>,
                             n: string)
    requires IsPlan(digest, desired, existing, create, update, delete)
    requires FreshIds(create, existing, createCall)
    requires n in delete
    ensures delete[n] !in CreatedIds(create, create.Keys, createCall)
    ensures delete[n] !in UpdatedIds(update, update.Keys, updateCall)
    ensures delete[n] !in CarriedIds(existing, existing.Keys, create.Keys + update.Keys + delete.Keys)
  {
    assert n in existing && delete[n] == existing[n].id;
    forall m | m in update ensures update[m].id != delete[n] {
      assert m in existing && m in desired && m != n;
    }
    forall m | m in existing && m !in create.Keys + update.Keys + delete.Keys ensures existing[m].id != delete[n] {
      assert m != n;
    }
  }
}

=== FILE: reconcile.dfy ===
/** `_reconcile_lists_with_hash_detection`: from the desired lists (name to items) and the managed
    lists found in the account, the lists to create, to update and to delete. */
module Reconcile {
  import opened Seqs
  import opened ListHash
  import opened ZtLists

  /** A scheduled update: the existing list's ID and its new items. */
  datatype UpdateOp = UpdateOp(id: string, items: seq<string>)

  /** The planning rule, name by name: create what is desired but absent, update what is desired,
      present and changed, delete what is present but no longer desired. */
  ghost predicate IsPlan(digest: Digest, desired: map<string, seq<string>>, existing: map<string, ExistingList>,
                         create: map<string, seq<string>>, update: map<string, UpdateOp>, delete: map<string, string>)
  {
    && create.Keys == desired.Keys - existing.Keys
    && (forall n :: n in create ==> create[n] == desired[n])
    && (forall n :: n in update <==>
          n in desired && n in existing && HasListChanged(digest, desired[n], existing[n].description))
    && (forall n :: n in update ==> update[n] == UpdateOp(existing[n].id, desired[n]))
    && delete.Keys == existing.Keys - desired.Keys
    && (forall n :: n in delete ==> delete[n] == existing[n].id)
  }

  method ReconcileLists(digest: Digest, desired: map<string, seq<string>>, existing: map<string, ExistingList>)
    returns (create: map<string, seq<string>>, update: map<string, UpdateOp>, delete: map<string, string>)
    ensures IsPlan(digest, desired, existing, create, update, delete)
    ensures create.Keys !! update.Keys && create.Keys !! delete.Keys && update.Keys !! delete.Keys
    ensures update.Keys <= desired.Keys * existing.Keys
    ensures desired.Keys - (create.Keys + update.Keys) <= existing.Keys
  {
    create, update, delete := map[], map[], map[];
    var todo := desired.Keys;
    while todo != {}
      invariant todo <= desired.Keys
      invariant create.Keys == (desired.Keys - todo) - existing.Keys
      invariant forall n :: n in create ==> create[n] == desired[n]
      invariant forall n :: n in update <==>
        n in desired && n !in todo && n in existing && HasListChanged(digest, desired[n], existing[n].description)
      invariant forall n :: n in update ==> update[n] == UpdateOp(existing[n].id, desired[n])
      decreases todo
    {
      var name :| name in todo;
      if name in existing {
        if HasListChanged(digest, desired[name], existing[name].description) {
          update := update[name := UpdateOp(existing[name].id, desired[name])];
        }
      } else {
        create := create[name := desired[name]];
      }
      todo := todo - {name};
    }
    var rest := existing.Keys;
    while rest != {}
      invariant rest <= existing.Keys
      invariant delete.Keys == (existing.Keys - rest) - desired.Keys
      invariant forall n :: n in delete ==> delete[n] == existing[n].id
      decreases rest
    {
      var name :| name in rest;
      if name !in desired {
        delete := delete[name := existing[name].id];
      }
      rest := rest - {name};
    }
  }

  /** A list whose description the script wrote for the same set of items is left alone: it is
      neither created, updated nor deleted. */
  lemma StableListIsLeftAlone(digest: Digest, desired: map<string, seq<string>>, existing: map<string, ExistingList>,
                              create: map<string, seq<string>>, update: map<string, UpdateOp>, delete: map<string, string>,
                              name: string, written: seq<string>)
    requires IsPlan(digest, desired, existing, create, update, delete)
    requires name in desired && name in existing && '[' !in name
    requires existing[name].description == ManagedDescription(digest, name, written)
    requires Elems(written) == Elems(desired[name])
    ensures name !in create && name !in update && name !in delete
  {
    SameItemsReadAsUnchanged(digest, name, written, desired[name]);
  }

  /** For a list the script wrote earlier, an update is scheduled exactly when the desired items
      hash differently from the items last written. */
  lemma RewrittenListUpdatedIffHashDiffers(digest: Digest, desired: map<string, seq<string>>, existing: map<string, ExistingList>,
                                           create: map<string, seq<string>>, update: map<string, UpdateOp>, delete: map<string, string>,
                                           name: string, written: seq<string>)
    requires IsPlan(digest, desired, existing, create, update, delete)
    requires name in desired && name in existing && '[' !in name
    requires existing[name].description == ManagedDescription(digest, name, written)
    ensures name in update <==> CalculateListHash(digest, desired[name]) != CalculateListHash(digest, written)
  {
    ChangeDetectedExactlyOnHashChange(digest, name, written, desired[name]);
  }
}

=== FILE: retry.dfy ===
/** `CloudflareManager._api_call_with_retry`: up to six invocations of one remote operation,
    sleeping according to a fixed schedule between them. The operation's results are an input
    (what the k-th invocation produced) and the sleeps are an output. */
module Retry {
  import opened Strings

  /** The delays, in seconds, slept before retry 1, 2, ... */
  const Delays: seq<nat> := [2, 5, 30, 30, 60]

  /** Retries after the first attempt; there are `Retries + 1` attempts in all. */
  const Retries: nat := |Delays|

  /** What one invocation can raise. `RateLimited` and `ConnectionFailed` are the SDK's
      `RateLimitError` and `APIConnectionError` (caught first), `ApiFailed` any other `APIError`,
      and `Unexpected` every other exception. */
  datatype Failure =
    | RateLimited(message: string)
    | ConnectionFailed(message: string)
    | ApiFailed(message: string)
    | Unexpected(message: string)

  /** The result of one invocation of the wrapped operation. */
  datatype Outcome<T> = Ok(value: T) | Err(failure: Failure)

  /** How a call through the retry wrapper ends: with the operation's value, with `None` for a
      resource reported missing, or by raising. */
  datatype Resolution<T> = Returned(value: T) | NotFound | Raised(failure: Failure)

  /** A whole retried call: how it ended, how many times the operation ran, and what was slept. */
  datatype Run<T> = Run(result: Resolution<T>, calls: nat, sleeps: seq<nat>)

  /** How an `APIError` message is read, first match wins. */
  datatype ApiVerdict = ResourceMissing | ResourceExists | ApiFatal

  function ClassifyApiError(message: string): (v: ApiVerdict)
    ensures v == ResourceMissing <==> Contains(ToLower(message), "not found") || Contains(ToLower(message), "404")
    ensures v == ResourceExists <==>
      (v != ResourceMissing && (Contains(ToLower(message), "already exists") || Contains(ToLower(message), "409")))
  {
    var m := ToLower(message);
    if Contains(m, "not found") || Contains(m, "404") then ResourceMissing
    else if Contains(m, "already exists") || Contains(m, "409") then ResourceExists
    else ApiFatal
  }

  /** Failures that are slept on and retried while attempts remain. */
  predicate Retryable(f: Failure)
  {
    !f.ApiFailed?
  }

  /** The invocation failed in a way the wrapper retries. */
  predicate Retried<T>(o: Outcome<T>)
  {
    o.Err? && Retryable(o.failure)
  }

  /** How an invocation ends the call when it is not retried. */
  function Settle<T>(o: Outcome<T>): Resolution<T>
  {
    match o
    case Ok(v) => Returned(v)
    case Err(f) =>
      if f.ApiFailed? && ClassifyApiError(f.message) == ResourceMissing then NotFound else Raised(f)
  }

  /** The loop of `_api_call_with_retry` from attempt `i` on. */
  function RetryFrom<T>(op: nat -> Outcome<T>, i: nat): Run<T>
    requires i <= Retries
    decreases Retries - i
  {
    if Retried(op(i)) && i < Retries then
      var rest := RetryFrom(op, i + 1);
      Run(rest.result, rest.calls, [Delays[i]] + rest.sleeps)
    else
      Run(Settle(op(i)), i + 1, [])
  }

  /** From attempt `i` on: the attempts before the last are retried failures, each followed by its
      delay from the schedule, and the last one settles the call unless the schedule ran out. */
  lemma {:induction false} RetryFromShape<T>(op: nat -> Outcome<T>, i: nat)
    requires i <= Retries
    ensures i < RetryFrom(op, i).calls <= Retries + 1
    ensures |RetryFrom(op, i).sleeps| == RetryFrom(op, i).calls - 1 - i
    ensures forall k :: 0 <= k < |RetryFrom(op, i).sleeps| ==> RetryFrom(op, i).sleeps[k] == Delays[i + k]
    ensures forall k :: i <= k < RetryFrom(op, i).calls - 1 ==> Retried(op(k))
    ensures RetryFrom(op, i).calls - 1 < Retries ==> !Retried(op(RetryFrom(op, i).calls - 1))
    ensures RetryFrom(op, i).result == Settle(op(RetryFrom(op, i).calls - 1))
    decreases Retries - i
  {
    var r := RetryFrom(op, i);
    if Retried(op(i)) && i < Retries {
      RetryFromShape(op, i + 1);
      var rest := RetryFrom(op, i + 1);
      assert r == Run(rest.result, rest.calls, [Delays[i]] + rest.sleeps);
      forall k | 0 <= k < |r.sleeps| ensures r.sleeps[k] == Delays[i + k] {
        if k > 0 {
          assert r.sleeps[k] == rest.sleeps[k - 1];
        }
      }
    } else {
      assert r == Run(Settle(op(i)), i + 1, []);
    }
  }

  /** `_api_call_with_retry`. The operation runs at most six times; every attempt but the last was
      a retried failure; the sleeps are exactly the first `calls - 1` delays of the schedule; and
      the call ends as its last attempt does. */
  function RetryCall<T>(op: nat -> Outcome<T>): (r: Run<T>)
    ensures 1 <= r.calls <= Retries + 1
    ensures |r.sleeps| == r.calls - 1 && r.sleeps == Delays[..|r.sleeps|]
    ensures forall k :: 0 <= k < r.calls - 1 ==> Retried(op(k))
    ensures r.calls <= Retries ==> !Retried(op(r.calls - 1))
    ensures r.result == Settle(op(r.calls - 1))
    ensures !Retried(op(0)) ==> r == Run(Settle(op(0)), 1, [])
  {
    RetryFromShape(op, 0);
    var r := RetryFrom(op, 0);
    assert r.sleeps == Delays[..|r.sleeps|];
    r
  }

  /** When every attempt fails in a retried way, the whole schedule is slept and the sixth
      failure is raised. */
  lemma {:induction false} ExhaustedRetriesRaiseLast<T>(op: nat -> Outcome<T>)
    requires forall k :: 0 <= k <= Retries ==> Retried(op(k))
    ensures RetryCall(op) == Run(Raised(op(Retries).failure), Retries + 1, Delays)
  {
    var r := RetryCall(op);
    assert Retried(op(r.calls - 1));
  }

  /** The first attempt that is not a retried failure, if any comes before the schedule runs out,
      decides the call. */
  lemma FirstSettledAttemptDecides<T>(op: nat -> Outcome<T>, n: nat)
    requires n <= Retries
    requires forall k :: 0 <= k < n ==> Retried(op(k))
    requires !Retried(op(n))
    ensures RetryCall(op) == Run(Settle(op(n)), n + 1, Delays[..n])
  {
    var r := RetryCall(op);
    assert !Retried(op(n));
  }
}

=== FILE: seqs.dfy ===
/** The two sequence notions the rest of the model shares. */
module Seqs {

  /** The set of elements of a sequence (Python's `set(list)`). */
  function Elems<T>(s: seq<T>): set<T>
  {
    set x | x in s
  }

  /** `s` begins with `p`: Python's `s.startswith(p)` on strings, `s[:len(p)] == p` on lists. */
  predicate StartsWith<T(==)>(s: seq<T>, p: seq<T>)
  {
    |p| <= |s| && s[..|p|] == p
  }
}

=== FILE: strings.dfy ===
/** The handful of Python `str` operations the synchroniser relies on, with Python's semantics. */
module Strings {

  /** `sub` occurs in `s` starting at index `i`. */
  predicate OccursAt(s: string, sub: string, i: int)
  {
    0 <= i && i + |sub| <= |s| && s[i..i + |sub|] == sub
  }

  /** Any slice of an occurrence is found at the matching offset of `s`. */
  lemma OccurrenceSlice(s: string, w: string, i: int, a: int, b: int)
    requires OccursAt(s, w, i) && 0 <= a <= b <= |w|
    ensures s[i + a..i + b] == w[a..b]
  {
    forall k | 0 <= k < b - a
      ensures s[i + a..i + b][k] == w[a..b][k]
    {
      assert s[i + a..i + b][k] == s[i + a + k] == s[i..i + |w|][a + k];
    }
  }

  /** Python's `sub in s`. */
  predicate Contains(s: string, sub: string)
  {
    exists i | 0 <= i <= |s| - |sub| :: OccursAt(s, sub, i)
  }

  /** Python's `s.find(sub, k)` for a non-empty `sub`: the lowest index at or after `k`
      where `sub` occurs, or -1 when there is none. */
  function FindFrom(s: string, sub: string, k: nat): (r: int)
    requires |sub| > 0
    ensures r == -1 || (k <= r && OccursAt(s, sub, r))
    ensures forall j :: k <= j && (r == -1 || j < r) ==> !OccursAt(s, sub, j)
    ensures k == 0 ==> (r >= 0 <==> Contains(s, sub))
    decreases |s| - k
  {
    if k + |sub| > |s| then -1
    else if s[k..k + |sub|] == sub then k
    else FindFrom(s, sub, k + 1)
  }

  /** Python's `sep.join(parts)`. */
  function Join(parts: seq<string>, sep: string): string
  {
    if |parts| == 0 then ""
    else if |parts| == 1 then parts[0]
    else parts[0] + sep + Join(parts[1..], sep)
  }

  /** Python's `s.replace(pat, rep)` for a non-empty `pat`: every non-overlapping occurrence,
      scanned from the left, is replaced. */
  function ReplaceAll(s: string, pat: string, rep: string): string
    requires |pat| > 0
    decreases |s|
  {
    if |s| < |pat| then s
    else if s[..|pat|] == pat then rep + ReplaceAll(s[|pat|..], pat, rep)
    else [s[0]] + ReplaceAll(s[1..], pat, rep)
  }

  /** Text without the pattern comes back unchanged. */
  lemma {:induction false} ReplaceAllAbsent(s: string, pat: string, rep: string)
    requires |pat| > 0 && !Contains(s, pat)
    ensures ReplaceAll(s, pat, rep) == s
    decreases |s|
  {
    if |s| >= |pat| {
      assert !OccursAt(s, pat, 0);
      assert !Contains(s[1..], pat) by {
        forall i | 0 <= i <= |s[1..]| - |pat| ensures !OccursAt(s[1..], pat, i) {
          assert !OccursAt(s, pat, i + 1);
          assert s[1..][i..i + |pat|] == s[i + 1..i + 1 + |pat|];
        }
      }
      ReplaceAllAbsent(s[1..], pat, rep);
      assert s == [s[0]] + s[1..];
    }
  }

  /** Replacing brings in no character that was in neither the text nor the replacement, and a
      one-character pattern missing from the replacement is gone afterwards. */
  lemma {:induction false} ReplaceAllChars(s: string, pat: string, rep: string)
    requires |pat| > 0
    ensures forall c :: c in ReplaceAll(s, pat, rep) ==> c in s || c in rep
    ensures |pat| == 1 && pat[0] !in rep ==> pat[0] !in ReplaceAll(s, pat, rep)
    decreases |s|
  {
    var r := ReplaceAll(s, pat, rep);
    if |s| >= |pat| {
      if s[..|pat|] == pat {
        var rest := s[|pat|..];
        ReplaceAllChars(rest, pat, rep);
        assert r == rep + ReplaceAll(rest, pat, rep);
        forall c | c in r ensures c in s || c in rep {
          if c !in rep {
            assert c in ReplaceAll(rest, pat, rep);
            assert c in rest;
            var j :| 0 <= j < |rest| && rest[j] == c;
            assert s[|pat| + j] == c;
          }
        }
      } else {
        var rest := s[1..];
        ReplaceAllChars(rest, pat, rep);
        assert r == [s[0]] + ReplaceAll(rest, pat, rep);
        forall c | c in r ensures c in s || c in rep {
          if c != s[0] && c !in rep {
            assert c in ReplaceAll(rest, pat, rep);
            assert c in rest;
            var j :| 0 <= j < |rest| && rest[j] == c;
            assert s[1 + j] == c;
          }
        }
        if |pat| == 1 {
          assert s[..1] == [s[0]];
        }
      }
    }
  }

  /** Unfolding `ReplaceAll` when the text does not start with the pattern. */
  lemma ReplaceAllSkip(s: string, pat: string, rep: string)
    requires 0 < |pat| <= |s| && s[0] != pat[0]
    ensures ReplaceAll(s, pat, rep) == [s[0]] + ReplaceAll(s[1..], pat, rep)
  {
    assert s[..|pat|][0] == s[0];
  }

  /** The pattern alone is replaced by the replacement. */
  lemma ReplaceAllWhole(pat: string, rep: string)
    requires |pat| > 0
    ensures ReplaceAll(pat, pat, rep) == rep
  {
    assert pat[..|pat|] == pat;
    assert pat[|pat|..] == [];
    assert ReplaceAll(pat, pat, rep) == rep + ReplaceAll([], pat, rep);
  }

  /** Replacing in `x + pat` removes just the final `pat` when `x` cannot start an occurrence. */
  lemma {:induction false} ReplaceAllTrailing(x: string, pat: string, rep: string)
    requires |pat| > 0 && pat[0] !in x
    ensures ReplaceAll(x + pat, pat, rep) == x + rep
    decreases |x|
  {
    if |x| == 0 {
      assert x + pat == pat;
      ReplaceAllWhole(pat, rep);
    } else {
      var s := x + pat;
      assert x[0] in x;
      ReplaceAllSkip(s, pat, rep);
      assert s[1..] == x[1..] + pat;
      assert pat[0] !in x[1..];
      ReplaceAllTrailing(x[1..], pat, rep);
      assert x == [x[0]] + x[1..];
    }
  }

  /** Python's `str.isspace()` for one character: the characters `str.strip()` removes. */
  predicate IsSpace(c: char)
  {
    || c == ' '
    || ('\t' <= c <= '\r')
    || ('\U{1c}' <= c <= '\U{1f}')
    || c == '\U{85}' || c == '\U{a0}' || c == '\U{1680}'
    || ('\U{2000}' <= c <= '\U{200a}')
    || c == '\U{2028}' || c == '\U{2029}' || c == '\U{202f}' || c == '\U{205f}' || c == '\U{3000}'
  }

  /** Python's `s.lstrip()`. */
  function TrimStart(s: string): (r: string)
    ensures |r| <= |s| && r == s[|s| - |r|..]
    ensures forall i :: 0 <= i < |s| - |r| ==> IsSpace(s[i])
    ensures |r| > 0 ==> !IsSpace(r[0])
    decreases |s|
  {
    if |s| > 0 && IsSpace(s[0]) then TrimStart(s[1..]) else s
  }

  /** Python's `s.rstrip()`. */
  function TrimEnd(s: string): (r: string)
    ensures |r| <= |s| && r == s[..|r|]
    ensures forall i :: |r| <= i < |s| ==> IsSpace(s[i])
    ensures |r| > 0 ==> !IsSpace(r[|r| - 1])
    decreases |s|
  {
    if |s| > 0 && IsSpace(s[|s| - 1]) then TrimEnd(s[..|s| - 1]) else s
  }

  /** `r` is `s[a..a + |r|]` and everything of `s` outside that slice is whitespace. */
  predicate TrimmedSlice(s: string, r: string, a: int)
  {
    && 0 <= a <= |s| - |r|
    && r == s[a..a + |r|]
    && (forall i :: 0 <= i < a ==> IsSpace(s[i]))
    && (forall i :: a + |r| <= i < |s| ==> IsSpace(s[i]))
  }

  /** Python's `s.strip()`: a slice of `s` that neither starts nor ends with whitespace,
      obtained by removing only whitespace. */
  function Strip(s: string): (r: string)
    ensures |r| == 0 || (!IsSpace(r[0]) && !IsSpace(r[|r| - 1]))
    ensures exists a :: TrimmedSlice(s, r, a)
  {
    var t := TrimStart(s);
    var r := TrimEnd(t);
    var a := |s| - |t|;
    assert TrimmedSlice(s, r, a);
    r
  }

  /** Stripping is idempotent: a stripped string has nothing left to strip. */
  lemma StripIdempotent(s: string)
    ensures Strip(Strip(s)) == Strip(s)
  {
    var r := Strip(s);
    if |r| > 0 {
      assert TrimStart(r) == r;
      assert TrimEnd(r) == r;
    }
  }

  /** The ASCII lower-case of a character; every other character is kept. */
  function LowerChar(c: char): char
  {
    if 'A' <= c <= 'Z' then (c as int + 32) as char else c
  }

  /** Python's `s.lower()` restricted to ASCII letters. */
  function ToLower(s: string): string
  {
    seq(|s|, i requires 0 <= i < |s| => LowerChar(s[i]))
  }
}

=== FILE: wrappers.dfy ===
/** Optional values and success/failure results, standing in for Python's `None` and for raised
    exceptions. */
module Wrappers {

  /** A value that may be absent, like Python's `Optional[...]`. */
  datatype Option<+T> = None | Some(value: T)

  /** Either a computed value or the error that stopped the computation. */
  datatype Result<+R, +E> = Success(value: R) | Failure(error: E)
}

=== FILE: ztlists.dfy ===
/** The Zero Trust lists the script manages, as read back from the account. */
module ZtLists {
  import opened Seqs
  import opened Wrappers
  import opened Retry

  /** One list as returned by the listing call; a missing `count` or `description` attribute has
      already been replaced by the defaults `0` and `""`. */
  datatype RemoteList = RemoteList(name: string, id: string, count: int, description: string)

  /** The record kept for a managed list, keyed by its name. */
  datatype ExistingList = ExistingList(id: string, count: int, description: string)

  function Entry(l: RemoteList): ExistingList
  {
    ExistingList(l.id, l.count, l.description)
  }

  /** The prefix filter of `get_all_zt_lists_by_prefix`: lists are visited in listing order and
      each one whose name starts with the prefix is stored under its name. */
  function FilterByPrefix(lists: seq<RemoteList>, prefix: string): map<string, ExistingList>
    decreases |lists|
  {
    if |lists| == 0 then map[]
    else
      var last := lists[|lists| - 1];
      var m := FilterByPrefix(lists[..|lists| - 1], prefix);
      if StartsWith(last.name, prefix) then m[last.name := Entry(last)] else m
  }

  /** Some list in the listing is named `n`. */
  predicate Listed(lists: seq<RemoteList>, n: string)
  {
    exists i :: 0 <= i < |lists| && lists[i].name == n
  }

  /** List `i` is the last one in the listing named `n`. */
  predicate LastNamed(lists: seq<RemoteList>, n: string, i: int)
  {
    && 0 <= i < |lists|
    && lists[i].name == n
    && forall j :: i < j < |lists| ==> lists[j].name != n
  }

  /** Exactly the names with the prefix are kept, and each keeps the record of the last list in
      the listing that carries that name. */
  lemma FilterByPrefixKeepsLastMatch(lists: seq<RemoteList>, prefix: string)
    ensures forall n :: n in FilterByPrefix(lists, prefix) <==> Listed(lists, n) && StartsWith(n, prefix)
    ensures forall n :: n in FilterByPrefix(lists, prefix) ==>
      exists i :: LastNamed(lists, n, i) && FilterByPrefix(lists, prefix)[n] == Entry(lists[i])
  {
    FilterByPrefixKeys(lists, prefix);
    FilterByPrefixValues(lists, prefix);
  }

  /** The kept names are the listed names with the prefix. */
  lemma {:induction false} FilterByPrefixKeys(lists: seq<RemoteList>, prefix: string)
    ensures forall n :: n in FilterByPrefix(lists, prefix) <==> Listed(lists, n) && StartsWith(n, prefix)
    decreases |lists|
  {
    if |lists| > 0 {
      var init := lists[..|lists| - 1];
      var last := lists[|lists| - 1];
      FilterByPrefixKeys(init, prefix);
      assert forall i :: 0 <= i < |init| ==> init[i] == lists[i];
      forall n | Listed(lists, n)
        ensures Listed(init, n) || n == last.name
      {
        var i :| 0 <= i < |lists| && lists[i].name == n;
        if i < |init| {
          assert init[i].name == n;
        }
      }
      forall n | Listed(init, n) ensures Listed(lists, n) {
        var i :| 0 <= i < |init| && init[i].name == n;
        assert lists[i].name == n;
      }
      assert lists[|lists| - 1].name == last.name;
    }
  }

  /** Each kept name holds the record of the last listed list with that name. */
  lemma {:induction false} FilterByPrefixValues(lists: seq<RemoteList>, prefix: string)
    ensures forall n :: n in FilterByPrefix(lists, prefix) ==>
      exists i :: LastNamed(lists, n, i) && FilterByPrefix(lists, prefix)[n] == Entry(lists[i])
    decreases |lists|
  {
    if |lists| > 0 {
      var init := lists[..|lists| - 1];
      var last := lists[|lists| - 1];
      var r := FilterByPrefix(lists, prefix);
      var m := FilterByPrefix(init, prefix);
      FilterByPrefixValues(init, prefix);
      FilterByPrefixKeys(init, prefix);
      forall n | n in r
        ensures exists i :: LastNamed(lists, n, i) && r[n] == Entry(lists[i])
      {
        if n == last.name && StartsWith(last.name, prefix) {
          assert LastNamed(lists, n, |lists| - 1) && r[n] == Entry(lists[|lists| - 1]);
        } else {
          assert n in m && r[n] == m[n];
          assert StartsWith(n, prefix);
          assert n != last.name;
          var i :| LastNamed(init, n, i) && m[n] == Entry(init[i]);
          assert lists[i] == init[i];
          forall j | i < j < |lists| ensures lists[j].name != n {
            if j < |init| {
              assert lists[j] == init[j];
            }
          }
          assert LastNamed(lists, n, i);
        }
      }
    }
  }

  /** `get_all_zt_lists_by_prefix` after its retried listing call: a listing that came back as
      `None` yields no lists, and a raised failure propagates. */
  function ExistingListsFrom(response: Resolution<seq<RemoteList>>, prefix: string): Result<map<string, ExistingList>, Failure>
  {
    match response
    case Returned(lists) => Success(FilterByPrefix(lists, prefix))
    case NotFound => Success(map[])
    case Raised(f) => Failure(f)
  }

  /** Reading the existing lists fails exactly when the listing call raised, with its failure;
      a listing reported missing yields no lists; otherwise exactly the listed lists with the
      prefix are kept, each with the record of the last listed list of its name. */
  lemma ExistingListsAreManaged(response: Resolution<seq<RemoteList>>, prefix: string)
    ensures ExistingListsFrom(response, prefix).Failure? <==> response.Raised?
    ensures response.Raised? ==> ExistingListsFrom(response, prefix).error == response.failure
    ensures ExistingListsFrom(response, prefix).Success? ==>
      forall n :: n in ExistingListsFrom(response, prefix).value ==>
        StartsWith(n, prefix) && response.Returned? && Listed(response.value, n)
    ensures response.NotFound? ==> ExistingListsFrom(response, prefix) == Success(map[])
    ensures response.Returned? ==>
      forall n :: n in ExistingListsFrom(response, prefix).value <==>
        Listed(response.value, n) && StartsWith(n, prefix)
    ensures response.Returned? ==>
      forall n :: n in ExistingListsFrom(response, prefix).value ==>
        exists i :: LastNamed(response.value, n, i)
          && ExistingListsFrom(response, prefix).value[n] == Entry(response.value[i])
  {
    if response.Returned? {
      FilterByPrefixKeepsLastMatch(response.value, prefix);
    }
  }
}
